=== FILE: README.md ===
# Flashcards, modelled in Dafny

A model of the console flashcard trainer `flashcards.py`. The trainer keeps a
list of cards. Each card is a term with its definition. Next to the list it
keeps a dict of mistake counters, keyed by term. The user types commands:

- `add`, `remove`: create and delete cards.
- `import`, `export`: load and save cards as `term:definition:count` lines.
- `ask`: quiz on randomly chosen cards; every wrong answer adds one mistake.
- `hardest card`: show the terms with the most mistakes.
- `reset stats`: clear the counters.
- `log`: save the console log.
- `exit`: leave the loop.

Two command-line options are read before the loop starts. `--import_from=FILE`
loads a file at once. `--export_to=FILE` saves the cards when the session ends.

The Python program keeps the registry in class-level mutable state. Here a
registry is an immutable value, and every operation is a pure function from
the old registry to the new one. Outside inputs become parameters:

- Console input is a sequence of lines; running out of lines is Python's `EOFError`.
- Files are a map from path to text.
- The random choice of cards is a function `rng: nat -> nat` plus a count of the draws already used.
- The text of the console log, which `log` copies into a file, is a function of how many input lines are still unread. Both functions form the `Env` of a session.

Modules, in dependency order:

| module | file | contents |
|---|---|---|
| `Wrappers` | `wrappers.dfy` | `Option` |
| `Text` | `text.dfy` | `str.strip`, `str.split`/`join`, `int()`/`str()` on integers, `readlines` |
| `Cards` | `cards.dfy` | the `Card` class: cards, lookups, removal, random draws, mistake counters |
| `Hardest` | `hardest.dfy` | `get_hardest_cards` as a loop, and the message `show_hardest_card` picks |
| `Quiz` | `quiz.dfy` | `ask_for_card` and `ask` |
| `CardFile` | `card_file.dfy` | the line format, `import_cards`, `export_cards`, the round trip |
| `Session` | `session.dfy` | `add_card`, the commands of `run`, the `run` loop, the argument loop, the whole script |

The mistake counters are a Python dict, so they are modelled as a list of
`(term, count)` entries in insertion order. Updating a key keeps its place.
A new key goes at the end. This order is the order in which
`get_hardest_cards` lists tied terms.

These behaviours of the program are modelled as written:

- Not every error is survivable. These exceptions end the process (`Fault` in `Session`):
  - `ask` with a count that is not an integer.
  - `ask` with a positive count on an empty registry.
  - A malformed line in an `import` typed at the prompt.
  - The end of console input.

  A malformed line in a `--import_from` file is reported as "Unknown argument", and startup goes on.
- Import performs no duplicate check, and it stops at the first malformed line. The lines before it stay loaded. A line whose count is not an integer has already added its card.
- `export` prints the "cards have been saved" message once per card written. It prints nothing for an empty registry (`SavedMessages`).

## Model

| member | source | states |
|---|---|---|
| Text.StripIsTrim | Flashcards/task/flashcards/flashcards.py:128 | `line.strip()` is a contiguous slice of the line. Everything cut off is whitespace, and what remains neither starts nor ends with whitespace. |
| Text.StripTerminatedLine | Flashcards/task/flashcards/flashcards.py:127-128 | A line whose text does not start or end with whitespace strips to that text, losing only its newline. |
| Text.Split | Flashcards/task/flashcards/flashcards.py:128 | `split` always yields at least one field. |
| Text.SplitFieldsFree | Flashcards/task/flashcards/flashcards.py:128 | No field of a split contains the separator. |
| Text.SplitCount | Flashcards/task/flashcards/flashcards.py:225 | A split has exactly one field more than the string has separators. |
| Text.JoinSplit | Flashcards/task/flashcards/flashcards.py:128 | Joining the fields of a split with the separator rebuilds the string. |
| Text.SplitJoin | Flashcards/task/flashcards/flashcards.py:128 | Splitting the join of separator-free fields gives those fields back. |
| Text.SplitWithoutSeparator | Flashcards/task/flashcards/flashcards.py:128 | A string without the separator is a single field. |
| Text.SplitAfterField | Flashcards/task/flashcards/flashcards.py:128 | A separator-free field followed by the separator splits off as the first field. |
| Text.Join3 | Flashcards/task/flashcards/flashcards.py:141 | Joining three fields puts one separator between each pair, as `print(..., sep=":")` does. |
| Text.NatToString | Flashcards/task/flashcards/flashcards.py:141 | `str(n)` of a natural number is a numeral whose value is `n`, with no leading zero unless `n` is 0. |
| Text.ParseIntToString | Flashcards/task/flashcards/flashcards.py:130 | `int(str(n)) == n` for every integer. The text is non-empty and has no whitespace or `:`. |
| Text.ReadLines | Flashcards/task/flashcards/flashcards.py:127 | `readlines` loses nothing: the lines concatenate to the text, and none is empty. |
| Text.ReadLinesAreLines | Flashcards/task/flashcards/flashcards.py:127 | Each line `readlines` returns has a newline at most as its last character, and every line but the last ends with one. |
| Text.ReadLinesAfterLine | Flashcards/task/flashcards/flashcards.py:127 | A newline-free line followed by a newline is read as one line, and the rest is read independently. |
| Text.ReadLinesConcat | Flashcards/task/flashcards/flashcards.py:127 | Newline-terminated lines written one after another are read back as the same lines. |
| Cards.FirstIndex | Flashcards/task/flashcards/flashcards.py:61 | The linear scan returns the first position holding the value. It fails exactly when the value is absent. |
| Cards.TermExists | Flashcards/task/flashcards/flashcards.py:47-48 | True exactly when some card carries the term. |
| Cards.DefinitionExists | Flashcards/task/flashcards/flashcards.py:51-52 | True exactly when some card carries the definition. |
| Cards.TermExistsCons | Flashcards/task/flashcards/flashcards.py:47-48 | A term exists in a list exactly when it is the first card's term or exists in the rest. |
| Cards.GetCardByTerm | Flashcards/task/flashcards/flashcards.py:59-61 | Returns the first card with the term; fails (IndexError) exactly when there is none. |
| Cards.GetCardByDefinition | Flashcards/task/flashcards/flashcards.py:63-65 | Returns the first card with the definition; fails exactly when there is none. |
| Cards.GetCardByTermUnique | Flashcards/task/flashcards/flashcards.py:59-61 | When terms are unique, looking up the term of any card returns that card. |
| Cards.RemoveCard | Flashcards/task/flashcards/flashcards.py:54-57 | Fails exactly when no card has the term. Otherwise it drops the first such card, keeps the order of the rest, and is one card shorter. |
| Cards.RemoveCardMultiset | Flashcards/task/flashcards/flashcards.py:54-57 | As multisets, the result plus one card with the term equals the original list. |
| Cards.RemoveCardWellFormed | Flashcards/task/flashcards/flashcards.py:54-57 | Removal keeps terms and definitions unique. Under uniqueness the term is gone afterwards. |
| Cards.RemoveCardLeavesLaterDuplicate | Flashcards/task/flashcards/flashcards.py:54-57 | Without uniqueness, a later card with the same term survives the removal. |
| Cards.GetRandomCards | Flashcards/task/flashcards/flashcards.py:67-69 | `random.choices(all, k=n)`: it fails exactly when `n > 0` and there are no cards. Otherwise it returns `max(n, 0)` cards, each one from the registry. |
| Cards.Replay | Flashcards/task/flashcards/flashcards.py:67-69 | A source whose draws point at the cards of a sequence, in order, draws exactly that sequence. |
| Cards.GetRandomCardsComplete | Flashcards/task/flashcards/flashcards.py:67-69 | Every non-empty sequence made of registry cards is the draw of some random source. |
| Cards.Lookup | Flashcards/task/flashcards/flashcards.py:96-100 | A counter is found exactly when the term is a key, and it is the count of an entry with that term. |
| Cards.LookupUnique | Flashcards/task/flashcards/flashcards.py:96-100 | With unique keys, any entry carrying the term holds the value the lookup returns. |
| Cards.NumberOfMistakes | Flashcards/task/flashcards/flashcards.py:96-100 | The term's counter, or 0 when the term has none (the KeyError branch). |
| Cards.FirstIndexSamePositions | Flashcards/task/flashcards/flashcards.py:92 | Two key lists that hold a key at the same positions find it at the same place. So changing a counter in place moves no key. |
| Cards.FirstIndexAppend | Flashcards/task/flashcards/flashcards.py:94 | Appending a new key does not move the keys already present. |
| Cards.SetCountSpec | Flashcards/task/flashcards/flashcards.py:130 | `stats[term] = v`: the term reads `v` afterwards and every other term reads as before. An existing key keeps its place, a new key goes at the end, and keys stay unique. |
| Cards.NumberOfMistakesAfterSet | Flashcards/task/flashcards/flashcards.py:130 | After setting a counter, the term reads the new value and other terms their old ones. |
| Cards.IncMistakes | Flashcards/task/flashcards/flashcards.py:90-94 | The term's count goes up by one, starting from 0 when absent. Every other term is unchanged; a new key is appended; keys stay unique. |
| Cards.ResetStats | Flashcards/task/flashcards/flashcards.py:71-73 | `clear()` leaves no counters, so every term reads 0 mistakes. A term counted later goes in as a new key, after those counted before it. |
| Hardest.MaxCount | Flashcards/task/flashcards/flashcards.py:79 | `max(stats.values())` is attained by some entry and bounds every entry. |
| Hardest.TermsWithCountMembers | Flashcards/task/flashcards/flashcards.py:81-87 | A term is listed exactly when some entry pairs it with the given count. The list is no longer than the counters. |
| Hardest.GetHardestCards | Flashcards/task/flashcards/flashcards.py:75-88 | Empty counters give `([], 0)`. Otherwise the maximum is attained and bounds every entry, and the result lists exactly the maximal terms in dict order. The `>` branch is unreachable. |
| Hardest.ShowHardestCard | Flashcards/task/flashcards/flashcards.py:178-188 | "No errors" exactly when the counters are empty or the maximum is 0. Otherwise it shows the singular message for one hardest term and the plural message for several, with the maximum. |
| Hardest.HardestExample | Flashcards/task/flashcards/flashcards.py:75-88 | Counters {A:2, B:3, C:3} give `(["B", "C"], 3)`. |
| Quiz.AskForCard | Flashcards/task/flashcards/flashcards.py:147-157 | The answer is correct exactly when it equals the definition. A wrong answer that is another card's definition names the first such card. Otherwise the plain wrong verdict carries the expected definition. |
| Quiz.IncMistakesKeepsPlaces | Flashcards/task/flashcards/flashcards.py:90-94 | Counting a mistake never moves or drops an existing key. |
| Quiz.Ask | Flashcards/task/flashcards/flashcards.py:160-166 | One verdict per drawn card, in order, each the verdict `ask_for_card` gives for that card and answer. Keys stay unique. |
| Quiz.AskCountsMistakes | Flashcards/task/flashcards/flashcards.py:163-166 | Every term's count grows by the number of wrong answers to cards with that term. Right answers and cards never asked leave counts alone. |
| Quiz.AskKeepsPlaces | Flashcards/task/flashcards/flashcards.py:160-166 | A quiz never moves or drops an existing key. |
| Quiz.AskExample | Flashcards/task/flashcards/flashcards.py:147-166 | A concrete quiz: a correct answer and a wrong one that is another card's definition. |
| CardFile.ExportLines | Flashcards/task/flashcards/flashcards.py:140-141 | One `term:definition:count` line per card, in card order, each with the card's current count. |
| CardFile.ParseLineSound | Flashcards/task/flashcards/flashcards.py:128-130 | A line that parses is, once stripped, a term, a definition and a count field joined by two `:`. None of the three holds a `:`. |
| CardFile.ParseLineComplete | Flashcards/task/flashcards/flashcards.py:128-130 | Every such line whose count field `ParseInt` accepts parses to its card and that count. |
| CardFile.ParseFormatLine | Flashcards/task/flashcards/flashcards.py:128-130 | An exported line parses back to its card and count, when the fields hold no `:` or newline and the term does not start with whitespace. |
| CardFile.FormatLineIsOneLine | Flashcards/task/flashcards/flashcards.py:141 | Such an exported line is a single newline-terminated line. |
| CardFile.ApplyLinesOutcome | Flashcards/task/flashcards/flashcards.py:127-132 | Import stops at the first line that does not parse and reports it. Every line before it was loaded; with no such line, all lines load. |
| CardFile.ApplyLinesUniqueKeys | Flashcards/task/flashcards/flashcards.py:127-131 | Import keeps the counters' keys unique. |
| CardFile.ApplyLinesStats | Flashcards/task/flashcards/flashcards.py:127-133 | After any import, each term reads the count of the last loaded line naming it. A term no loaded line names keeps its count. |
| CardFile.ApplyLinesCards | Flashcards/task/flashcards/flashcards.py:127-131 | After import the cards are: the old cards, then the card of each loaded line, then the card of a line that failed only on its count. |
| CardFile.CardsOfRecords | Flashcards/task/flashcards/flashcards.py:129 | The cards of the exported records are the exported cards. |
| CardFile.ApplyRecordsStats | Flashcards/task/flashcards/flashcards.py:130 | Loading the records gives each exported term its exported count and leaves other terms alone. |
| CardFile.ReadExport | Flashcards/task/flashcards/flashcards.py:127-128 | Reading an exported file back gives one record per card. |
| CardFile.ImportExport | Flashcards/task/flashcards/flashcards.py:123-144 | Importing an exported file of cards with no colon or line break (`\n` or `\r`), and no term starting with whitespace, loads every line without error and appends the exported cards in order. Each exported term reads back its exported count; other terms keep the importing registry's counts. |
| CardFile.ImportAllowsDuplicates | Flashcards/task/flashcards/flashcards.py:127-131 | Import performs no duplicate check: the card constructor it calls appends a card whose term is already present. |
| Session.FirstFresh | Flashcards/task/flashcards/flashcards.py:105-109 | The re-prompt loop stops at the first line not already taken; without one, input runs out. |
| Session.AddCard | Flashcards/task/flashcards/flashcards.py:103-111 | The new card's term is not yet a term, and its definition is not yet a definition. Both come from the input, which shrinks by at least two lines. |
| Session.AddCardSucceeds | Flashcards/task/flashcards/flashcards.py:103-111 | `add_card` finishes exactly when some line that is not yet a term is followed, later on, by a line that is not yet a definition. Otherwise input runs out. |
| Session.AddCardTakesFirstFresh | Flashcards/task/flashcards/flashcards.py:104-110 | The term is the first line that is not yet a term. The definition is the first later line that is not yet a definition. Input resumes right after the definition. |
| Session.AddCardWellFormed | Flashcards/task/flashcards/flashcards.py:103-111 | Adding a card keeps terms and definitions unique. |
| Session.AddCardRetries | Flashcards/task/flashcards/flashcards.py:105-109 | A taken term and a taken definition are each asked for again. |
| Session.DoAsk | Flashcards/task/flashcards/flashcards.py:160-166 | `ask` consumes input and leaves the cards alone. A count `ParseInt` rejects ends the process. A count of 0 or less asks nothing and changes nothing. A positive count ends it with `NoCardsToDraw` exactly when the registry is empty. |
| Session.DoAskReadsAnswers | Flashcards/task/flashcards/flashcards.py:160-166 | A positive count `n` on a non-empty registry uses `n` draws and reads the next `n` lines as answers. Input resumes after them, and too few lines is the end of input. |
| Session.DoAskCountsMistakes | Flashcards/task/flashcards/flashcards.py:160-166 | Each answer line gets the verdict `ask_for_card` gives for its drawn card. Every term's count grows by the number of wrong answers to drawn cards with that term. |
| Session.AnswerDrawn | Flashcards/task/flashcards/flashcards.py:163-166 | Answering the drawn cards uses one line per card and leaves cards and files alone. It runs out of input exactly when fewer lines remain than cards. |
| Session.AnswerDrawnCounts | Flashcards/task/flashcards/flashcards.py:163-166 | With enough lines, each drawn card gets the verdict on its own answer line, and each wrong answer counts one mistake for its term. |
| Session.DoAdd | Flashcards/task/flashcards/flashcards.py:103-111 | `add` appends the card `add_card` builds, and input resumes after its definition. It fails exactly when input runs out first. Counters and files stay as they were, and unique terms and definitions stay unique. |
| Session.DoRemove | Flashcards/task/flashcards/flashcards.py:114-120 | `remove` leaves the counters alone. An existing term's first card is removed, and "card removed" is reported. An absent term changes nothing and is reported as no such card. It fails only at the end of input. |
| Session.DoImport | Flashcards/task/flashcards/flashcards.py:123-134 | A missing file changes nothing and is reported. A file that reads through leaves the registry its lines build, and the number loaded is reported. A malformed line ends the process. It fails exactly at the end of input or on a file with a bad line. |
| Session.Export | Flashcards/task/flashcards/flashcards.py:137-141 | The file then holds the exported text of the registry. No other file is created or changed, and the registry and the draws are unchanged. |
| Session.DoExport | Flashcards/task/flashcards/flashcards.py:137-144 | `export` reads one line and writes the registry's text to the file it names. No other file is created or changed, and the registry and the draws are unchanged. It reports "saved" once per card, and it fails only at the end of input. |
| Session.DoLog | Flashcards/task/flashcards/flashcards.py:169-175 | `log` reads one line and overwrites the file it names with the log text. No other file is created or changed, and the registry and the draws are unchanged. It fails only at the end of input. |
| Session.Step | Flashcards/task/flashcards/flashcards.py:196-219 | Only the exact line `exit` stops the loop, and it changes nothing. Every other turn consumes input, and an empty input is the end-of-file fault. |
| Session.StepRunsCommand | Flashcards/task/flashcards/flashcards.py:198-217 | Each of the eight command words runs its own handler on the lines after it. `hardest card` reports the hardest terms and changes nothing. `reset stats` keeps the cards and empties the counters, so every count reads 0. |
| Session.UnknownActionIsNoOp | Flashcards/task/flashcards/flashcards.py:198-219 | A line naming no action is read and ignored. |
| Session.StepKeepsUniqueKeys | Flashcards/task/flashcards/flashcards.py:196-219 | Every turn keeps the counters' keys unique. |
| Session.Run | Flashcards/task/flashcards/flashcards.py:196-219 | The loop can end normally only if `exit` was typed. Without an `exit` line it ends in a fault. |
| Session.RunKeepsUniqueKeys | Flashcards/task/flashcards/flashcards.py:196-219 | The whole loop keeps the counters' keys unique. |
| Session.ClassifyArgMalformed | Flashcards/task/flashcards/flashcards.py:225-231 | An argument fails to unpack exactly when it does not hold exactly one `=`. |
| Session.ClassifyArgOption | Flashcards/task/flashcards/flashcards.py:225-229 | A recognised option is its name, `=`, and a value that holds no `=`. |
| Session.ClassifyOption | Flashcards/task/flashcards/flashcards.py:225-229 | Conversely, `name=value` without another `=` is read as that name and value. |
| Session.TwoFields | Flashcards/task/flashcards/flashcards.py:225 | Two fields around one `=` rebuild the argument. |
| Session.ApplyArg | Flashcards/task/flashcards/flashcards.py:224-231 | Only an import changes the registry, and no argument writes a file. A malformed argument is reported. A missing import file changes nothing. An existing one leaves the registry its lines build, including the lines before a bad one. The bad line is reported as an unknown argument, and a clean import as the number loaded. |
| Session.LastExportUnique | Flashcards/task/flashcards/flashcards.py:228-229 | Only one value can be the last `--export_to`. |
| Session.ProcessArgs | Flashcards/task/flashcards/flashcards.py:222-231 | An export target exists exactly when some argument is `--export_to=...`, and it is the last such argument. Files are untouched. |
| Session.ProcessArgsSnoc | Flashcards/task/flashcards/flashcards.py:223-231 | The arguments act in order, and a failing one does not stop the loop. One more argument acts on the state the earlier ones left. |
| Session.ProcessArgsWithoutImports | Flashcards/task/flashcards/flashcards.py:223-231 | Arguments that are not `--import_from` leave the state as it was. |
| Session.Program | Flashcards/task/flashcards/flashcards.py:222-236 | The script ends normally exactly when `run`, started on the registry the arguments built, exits, which takes an `exit` line. It ends with the registry `run` left. A normal end exports exactly when the last `--export_to` value is non-empty, and then to that value. That file then holds the final registry. |
| Session.ExitAtOnce | Flashcards/task/flashcards/flashcards.py:222-236 | With no arguments and `exit` typed at once, the script ends with an empty registry and untouched files. |

## Left out

- The console logging (`LoggerOut`, `LoggerIn`, lines 5-33): it is I/O. The log text that `ask_for_log` copies is a parameter of the session, not computed from the messages.
- Session.DoLog: an output file that cannot be opened (line 172) raises an uncaught exception in the source. The model's file map accepts every path, so `log` always succeeds after reading a name.
- Exact message text and prompts: they are I/O. The model records which message is printed as an `Event`.
- Opening files: a missing import file is modelled. An export target that cannot be opened (`FileNotFoundError` on write, lines 143-144) is not, because the model's file map accepts every path.
- Python's universal-newline translation when reading: it is an OS/IO-layer detail. Lines are cut at `\n` only.
- CardFile.ImportExport: a term or definition typed with a trailing carriage return (CRLF console input) is stored as typed. Its exported line then does not import back, because text-mode `readlines` breaks it at the `\r`. The round trip is stated only for cards without `\r`, and that failing import is not modelled, since `ReadLines` cuts at `\n` only.
- `int()` leniencies: surrounding whitespace, `+`, underscores and non-ASCII digits. `ParseInt` accepts only an optional `-` followed by ASCII digits, because the program itself only writes numbers in that form. This applies in two places:
  - The count field of an imported line (line 130). Python accepts `a:b: 3`, while the model reports a bad count.
  - The repeat count typed at `ask` (line 161). Python accepts ` 3`, `3 ` and `+3`, while the model ends the session with `NotANumber`.
- The uniform distribution of `random.choices`: a random source is a parameter. Every result is shown reachable (`Cards.GetRandomCardsComplete`), but not equally likely.
- `Card.number_of_cards` (line 37): it is never read or updated.
- Unicode whitespace in `str.strip`: the whitespace characters are listed explicitly in the model. Unicode property tables are not modelled.

=== FILE: card_file.dfy ===
/**
 * The card file of `import_cards` and `export_cards`: one card per line,
 * written as `term:definition:mistakes`, with no escaping of `:`.
 */
module CardFile {
  import opened Wrappers
  import opened Text
  import opened Cards

  /** The line `export_cards` writes for a card: `print(term, definition, count, sep=":")`. */
  function FormatLine(card: Card, count: int): string {
    card.term + ":" + card.definition + ":" + IntToString(count) + "\n"
  }

  /** The lines `export_cards` writes: every card in list order with its mistake count. */
  function ExportLines(cards: seq<Card>, stats: Stats): (r: seq<string>)
    ensures |r| == |cards|
    ensures forall k :: 0 <= k < |cards| ==> r[k] == FormatLine(cards[k], NumberOfMistakes(stats, cards[k].term))
  {
    if |cards| == 0 then []
    else [FormatLine(cards[0], NumberOfMistakes(stats, cards[0].term))] + ExportLines(cards[1..], stats)
  }

  /** The whole exported file. */
  function ExportText(cards: seq<Card>, stats: Stats): string {
    Concat(ExportLines(cards, stats))
  }

  /** How one line fails to import, both being Python's `ValueError`. */
  datatype LineError =
    | FieldCount(fields: nat)        // the stripped line does not split into three fields
    | NotAnInteger(field: string)    // the third field is not an integer

  /**
   * How `import_cards` reads one line: `line.strip().split(":")` must give three
   * fields; the card is created before `int()` reads the third one, so a bad
   * count still leaves a card behind.
   */
  datatype ParsedLine =
    | Parsed(card: Card, count: int)
    | BadCount(card: Card, field: string)
    | BadFields(fields: nat)

  function ParseLine(line: string): ParsedLine {
    var fields := Split(Strip(line), ':');
    if |fields| != 3 then BadFields(|fields|)
    else
      match ParseInt(fields[2])
      case Some(n) => Parsed(Card(fields[0], fields[1]), n)
      case None => BadCount(Card(fields[0], fields[1]), fields[2])
  }

  /** The shape of a line that imports: stripped, it is three colon-free fields joined by colons. */
  predicate IsRecord(line: string, card: Card, digits: string) {
    && ':' !in card.term && ':' !in card.definition && ':' !in digits
    && Strip(line) == card.term + ":" + card.definition + ":" + digits
  }

  /** A line that parses is, once stripped, the term, the definition and the count's text joined by two colons. */
  lemma ParseLineSound(line: string)
    requires ParseLine(line).Parsed?
    ensures exists digits :: IsRecord(line, ParseLine(line).card, digits)
                             && ParseInt(digits) == Some(ParseLine(line).count)
  {
    var fields := Split(Strip(line), ':');
    JoinSplit(Strip(line), ':');
    SplitFieldsFree(Strip(line), ':');
    assert fields == [fields[0], fields[1], fields[2]];
    Join3(fields[0], fields[1], fields[2], ':');
    assert IsRecord(line, ParseLine(line).card, fields[2]);
  }

  /** Conversely, every such line parses, to exactly that card and count. */
  lemma ParseLineComplete(line: string, card: Card, digits: string, count: int)
    requires IsRecord(line, card, digits) && ParseInt(digits) == Some(count)
    ensures ParseLine(line) == Parsed(card, count)
  {
    var fs := [card.term, card.definition, digits];
    Join3(card.term, card.definition, digits, ':');
    SplitJoin(fs, ':');
  }

  /**
   * A card survives a write and read of its line: no colon or line break in it
   * (text-mode `readlines` breaks lines at a carriage return too), and no leading
   * whitespace on its term.
   */
  predicate Exportable(card: Card) {
    && ':' !in card.term && '\n' !in card.term && '\r' !in card.term
    && ':' !in card.definition && '\n' !in card.definition && '\r' !in card.definition
    && (|card.term| > 0 ==> !IsSpace(card.term[0]))
  }

  /** Reading an exported line gives back the card and its count. */
  lemma ParseFormatLine(card: Card, count: int)
    requires Exportable(card)
    ensures ParseLine(FormatLine(card, count)) == Parsed(card, count)
  {
    ParseIntToString(count);
    var digits := IntToString(count);
    var a := card.term + ":" + card.definition + ":" + digits;
    assert FormatLine(card, count) == a + "\n";
    assert a[0] == (if |card.term| > 0 then card.term[0] else ':');
    assert a[|a| - 1] == digits[|digits| - 1];
    StripTerminatedLine(a);
    ParseLineComplete(FormatLine(card, count), card, digits, count);
  }

  // ---------------------------------------------------------------------------
  // Import
  // ---------------------------------------------------------------------------

  /** The outcome of `import_cards` on a file that exists. */
  datatype ImportResult = ImportResult(reg: Registry, loaded: nat, error: Option<LineError>)

  /**
   * The loop of `import_cards`: lines are applied in order with no duplicate
   * check, each appending its card and overwriting its term's counter, until
   * the first line that fails; what came before it stays applied, and a line
   * failing only on its count still appends its card.
   */
  function ApplyLines(reg: Registry, lines: seq<ParsedLine>): ImportResult
    decreases |lines|
  {
    if |lines| == 0 then ImportResult(reg, 0, None)
    else
      match lines[0]
      case BadFields(n) => ImportResult(reg, 0, Some(FieldCount(n)))
      case BadCount(card, field) => ImportResult(reg.(cards := reg.cards + [card]), 0, Some(NotAnInteger(field)))
      case Parsed(card, count) =>
        var rest := ApplyLines(Registry(reg.cards + [card], SetCount(reg.stats, card.term, count)), lines[1..]);
        rest.(loaded := rest.loaded + 1)
  }

  /**
   * Import stops at the first line that is not a record, reporting it, and
   * loads every line when there is none.
   */
  lemma {:induction false} ApplyLinesOutcome(reg: Registry, lines: seq<ParsedLine>)
    ensures var r := ApplyLines(reg, lines);
            && r.loaded <= |lines|
            && (r.error.None? <==> forall k :: 0 <= k < |lines| ==> lines[k].Parsed?)
            && (r.error.None? ==> r.loaded == |lines|)
            && (r.error.Some? ==> r.loaded < |lines| && !lines[r.loaded].Parsed?)
            && (forall k :: 0 <= k < r.loaded ==> lines[k].Parsed?)
    decreases |lines|
  {
    if |lines| > 0 && lines[0].Parsed? {
      var reg' := Registry(reg.cards + [lines[0].card], SetCount(reg.stats, lines[0].card.term, lines[0].count));
      ApplyLinesOutcome(reg', lines[1..]);
      var rest := ApplyLines(reg', lines[1..]);
      forall k | 0 < k <= rest.loaded
        ensures lines[k].Parsed?
      {
        assert lines[k] == lines[1..][k - 1];
      }
      if forall k :: 0 <= k < |lines| ==> lines[k].Parsed? {
        assert forall k :: 0 <= k < |lines[1..]| ==> lines[1..][k].Parsed?;
      }
    }
  }

  /** The count of the last record for `term` among the first `n` lines, if any. */
  function LastLoaded(lines: seq<ParsedLine>, n: nat, term: string): Option<int>
    requires n <= |lines|
  {
    if n == 0 then None
    else if lines[n - 1].Parsed? && lines[n - 1].card.term == term then Some(lines[n - 1].count)
    else LastLoaded(lines, n - 1, term)
  }

  /** Looking past the first line: a later record for the term wins over it. */
  lemma {:induction false} LastLoadedShift(lines: seq<ParsedLine>, n: nat, term: string)
    requires 0 < n <= |lines|
    ensures LastLoaded(lines, n, term)
            == if LastLoaded(lines[1..], n - 1, term).Some? then LastLoaded(lines[1..], n - 1, term)
               else LastLoaded(lines, 1, term)
    decreases n
  {
    if n > 1 {
      assert lines[n - 1] == lines[1..][n - 2];
      LastLoadedShift(lines, n - 1, term);
    }
  }

  /**
   * What an import does to the counters: each term reads the count of the last
   * line loaded for it, as repeated `stats[term] = count` assignments leave it,
   * and a term no loaded line names keeps its count.
   */
  lemma {:induction false} ApplyLinesStats(reg: Registry, lines: seq<ParsedLine>, term: string)
    ensures var r := ApplyLines(reg, lines);
            && r.loaded <= |lines|
            && NumberOfMistakes(r.reg.stats, term)
               == LastLoaded(lines, r.loaded, term).GetOr(NumberOfMistakes(reg.stats, term))
    decreases |lines|
  {
    if |lines| > 0 && lines[0].Parsed? {
      var card, count := lines[0].card, lines[0].count;
      var reg' := Registry(reg.cards + [card], SetCount(reg.stats, card.term, count));
      ApplyLinesStats(reg', lines[1..], term);
      NumberOfMistakesAfterSet(reg.stats, card.term, count, term);
      var rest := ApplyLines(reg', lines[1..]);
      LastLoadedShift(lines, rest.loaded + 1, term);
    }
  }

  /** Import keeps the statistics a dict: keys stay unique. */
  lemma {:induction false} ApplyLinesUniqueKeys(reg: Registry, lines: seq<ParsedLine>)
    requires UniqueKeys(reg.stats)
    ensures UniqueKeys(ApplyLines(reg, lines).reg.stats)
    decreases |lines|
  {
    if |lines| > 0 && lines[0].Parsed? {
      var card, count := lines[0].card, lines[0].count;
      SetCountSpec(reg.stats, card.term, count);
      ApplyLinesUniqueKeys(Registry(reg.cards + [card], SetCount(reg.stats, card.term, count)), lines[1..]);
    }
  }

  /** The cards of the first `n` parsed lines, all of which split into three fields. */
  function CardsOf(lines: seq<ParsedLine>, n: nat): (r: seq<Card>)
    requires n <= |lines|
    requires forall k :: 0 <= k < n ==> !lines[k].BadFields?
    ensures |r| == n
  {
    if n == 0 then [] else [lines[0].card] + CardsOf(lines[1..], n - 1)
  }

  /** The `k`-th card collected is the card of the `k`-th line. */
  lemma {:induction false} CardsOfAt(lines: seq<ParsedLine>, n: nat, k: nat)
    requires k < n <= |lines|
    requires forall j :: 0 <= j < n ==> !lines[j].BadFields?
    ensures CardsOf(lines, n)[k] == lines[k].card
    decreases k
  {
    if k > 0 {
      CardsOfAt(lines[1..], n - 1, k - 1);
    }
  }

  /**
   * The cards an import leaves: the old ones, then the card of every line
   * applied, then the card of a line that failed only on its count.
   */
  lemma {:induction false} ApplyLinesCards(reg: Registry, lines: seq<ParsedLine>)
    ensures var r := ApplyLines(reg, lines);
            && r.loaded <= |lines|
            && (forall k :: 0 <= k < r.loaded ==> lines[k].Parsed?)
            && r.reg.cards == reg.cards + CardsOf(lines, r.loaded)
                              + (if r.error.Some? && r.loaded < |lines| && lines[r.loaded].BadCount?
                                 then [lines[r.loaded].card] else [])
    decreases |lines|
  {
    var r := ApplyLines(reg, lines);
    ApplyLinesOutcome(reg, lines);
    if |lines| > 0 && lines[0].Parsed? {
      var reg' := Registry(reg.cards + [lines[0].card], SetCount(reg.stats, lines[0].card.term, lines[0].count));
      var rest := ApplyLines(reg', lines[1..]);
      ApplyLinesCards(reg', lines[1..]);
      assert r == rest.(loaded := rest.loaded + 1);
      var c := lines[0].card;
      var xs := CardsOf(lines[1..], rest.loaded);
      var tail := if r.error.Some? && r.loaded < |lines| && lines[r.loaded].BadCount? then [lines[r.loaded].card] else [];
      assert tail == if rest.error.Some? && rest.loaded < |lines[1..]| && lines[1..][rest.loaded].BadCount?
                     then [lines[1..][rest.loaded].card] else [];
      forall k | 0 < k < r.loaded
        ensures lines[k].Parsed?
      {
        assert lines[k] == lines[1..][k - 1];
      }
      assert CardsOf(lines, r.loaded) == [c] + xs;
      calc {
        r.reg.cards;
        rest.reg.cards;
        (reg.cards + [c]) + xs + tail;
        reg.cards + ([c] + xs) + tail;
      }
    }
  }

  function ParseLines(lines: seq<string>): (r: seq<ParsedLine>)
    ensures |r| == |lines| && forall k :: 0 <= k < |lines| ==> r[k] == ParseLine(lines[k])
  {
    if |lines| == 0 then [] else [ParseLine(lines[0])] + ParseLines(lines[1..])
  }

  /** `import_cards` on the lines of a file. */
  function ImportLines(reg: Registry, lines: seq<string>): ImportResult {
    ApplyLines(reg, ParseLines(lines))
  }

  /** `import_cards` on the text of a file. */
  function ImportText(reg: Registry, text: string): ImportResult {
    ImportLines(reg, ReadLines(text))
  }

  /** The parsed form of the exported lines: each card with its counter. */
  function Records(cards: seq<Card>, stats: Stats): (r: seq<ParsedLine>)
    ensures |r| == |cards|
    ensures forall k :: 0 <= k < |cards| ==> r[k] == Parsed(cards[k], NumberOfMistakes(stats, cards[k].term))
  {
    if |cards| == 0 then []
    else [Parsed(cards[0], NumberOfMistakes(stats, cards[0].term))] + Records(cards[1..], stats)
  }

  /** The cards of the records are the exported cards. */
  lemma CardsOfRecords(cards: seq<Card>, stats: Stats)
    ensures CardsOf(Records(cards, stats), |cards|) == cards
  {
    var recs := Records(cards, stats);
    var r := CardsOf(recs, |cards|);
    forall k | 0 <= k < |cards|
      ensures r[k] == cards[k]
    {
      CardsOfAt(recs, |cards|, k);
    }
  }

  /** Applying one record per card gives each of their terms its exported counter and leaves other terms alone. */
  lemma {:induction false} ApplyRecordsStats(reg: Registry, cards: seq<Card>, stats: Stats)
    ensures var r := ApplyLines(reg, Records(cards, stats));
            forall t :: NumberOfMistakes(r.reg.stats, t)
                        == if TermExists(cards, t) then NumberOfMistakes(stats, t) else NumberOfMistakes(reg.stats, t)
    decreases |cards|
  {
    var recs := Records(cards, stats);
    if |cards| > 0 {
      var c := cards[0];
      var n := NumberOfMistakes(stats, c.term);
      var reg' := Registry(reg.cards + [c], SetCount(reg.stats, c.term, n));
      assert recs[1..] == Records(cards[1..], stats);
      ApplyRecordsStats(reg', cards[1..], stats);
      var r := ApplyLines(reg, recs);
      assert r.reg == ApplyLines(reg', recs[1..]).reg;
      forall t
        ensures NumberOfMistakes(r.reg.stats, t)
                == if TermExists(cards, t) then NumberOfMistakes(stats, t) else NumberOfMistakes(reg.stats, t)
      {
        TermExistsCons(cards, t);
        NumberOfMistakesAfterSet(reg.stats, c.term, n, t);
      }
    }
  }

  /**
   * The round trip: importing an exported file appends the exported cards in
   * order, and every term of those cards reads back its exported counter; other
   * counters keep their values in the importing registry.
   */
  lemma ImportExport(reg: Registry, cards: seq<Card>, stats: Stats)
    requires forall k :: 0 <= k < |cards| ==> Exportable(cards[k])
    ensures var r := ImportText(reg, ExportText(cards, stats));
            && r.error.None? && r.loaded == |cards| && r.reg.cards == reg.cards + cards
            && forall t :: NumberOfMistakes(r.reg.stats, t)
                           == if TermExists(cards, t) then NumberOfMistakes(stats, t) else NumberOfMistakes(reg.stats, t)
  {
    ReadExport(cards, stats);
    ApplyLinesOutcome(reg, Records(cards, stats));
    ApplyLinesCards(reg, Records(cards, stats));
    CardsOfRecords(cards, stats);
    ApplyRecordsStats(reg, cards, stats);
  }

  /** Reading an exported file back gives one record per card. */
  lemma ReadExport(cards: seq<Card>, stats: Stats)
    requires forall k :: 0 <= k < |cards| ==> Exportable(cards[k])
    ensures ParseLines(ReadLines(ExportText(cards, stats))) == Records(cards, stats)
  {
    var lines := ExportLines(cards, stats);
    forall k | 0 <= k < |lines|
      ensures IsLine(lines[k]) && IsClosed(lines[k])
    {
      FormatLineIsOneLine(cards[k], NumberOfMistakes(stats, cards[k].term));
    }
    ReadLinesConcat(lines);
    forall k | 0 <= k < |cards|
      ensures ParseLines(lines)[k] == Records(cards, stats)[k]
    {
      ParseFormatLine(cards[k], NumberOfMistakes(stats, cards[k].term));
    }
    assert ParseLines(lines) == Records(cards, stats);
  }

  /** An exported line of an exportable card is one line, newline included. */
  lemma FormatLineIsOneLine(card: Card, count: int)
    requires Exportable(card)
    ensures IsLine(FormatLine(card, count)) && IsClosed(FormatLine(card, count))
  {
    ParseIntToString(count);
    var line := FormatLine(card, count);
    assert line[..|line| - 1] == card.term + ":" + card.definition + ":" + IntToString(count);
  }

  /** Import performs no duplicate check: a line may repeat a term already in the registry. */
  lemma ImportAllowsDuplicates()
    ensures var reg := Registry([Card("a", "x")], []);
            var r := ImportLines(reg, [FormatLine(Card("a", "y"), 0)]);
            && WellFormed(reg.cards) && r.error.None? && !UniqueTerms(r.reg.cards)
  {
    var line := FormatLine(Card("a", "y"), 0);
    ParseFormatLine(Card("a", "y"), 0);
    var parsed := ParseLines([line]);
    assert parsed == [Parsed(Card("a", "y"), 0)];
    var reg := Registry([Card("a", "x")], []);
    var r := ApplyLines(reg, parsed);
    ApplyLinesCards(reg, parsed);
    assert r.loaded == 1;
    assert CardsOf(parsed, 1) == [Card("a", "y")];
    assert r.reg.cards == [Card("a", "x"), Card("a", "y")];
    assert r.reg.cards[0].term == r.reg.cards[1].term;
  }
}

=== FILE: cards.dfy ===
/**
 * The card registry of flashcards.py: the ordered card list `Card.all` and the
 * mistake statistics `Card.stats`. Python keeps both as class-level mutable
 * state; here a registry is an immutable value and every operation returns a
 * new one.
 */
module Cards {
  import opened Wrappers

  /** A flashcard: a term and its definition. */
  datatype Card = Card(term: string, definition: string)

  /** One entry of the mistake statistics: a term and its counter. */
  datatype Entry = Entry(term: string, count: int)

  /**
   * `Card.stats`: a Python dict from term to counter, kept as an association
   * list in the dict's iteration order (insertion order of the keys).
   */
  type Stats = seq<Entry>

  /** `Card.all` together with `Card.stats`. */
  datatype Registry = Registry(cards: seq<Card>, stats: Stats)

  function Terms(cards: seq<Card>): (r: seq<string>)
    ensures |r| == |cards| && forall i :: 0 <= i < |cards| ==> r[i] == cards[i].term
  {
    seq(|cards|, i requires 0 <= i < |cards| => cards[i].term)
  }

  function Definitions(cards: seq<Card>): (r: seq<string>)
    ensures |r| == |cards| && forall i :: 0 <= i < |cards| ==> r[i] == cards[i].definition
  {
    seq(|cards|, i requires 0 <= i < |cards| => cards[i].definition)
  }

  /** No two cards share a term. */
  predicate UniqueTerms(cards: seq<Card>) {
    forall i, j :: 0 <= i < j < |cards| ==> cards[i].term != cards[j].term
  }

  /** No two cards share a definition. */
  predicate UniqueDefinitions(cards: seq<Card>) {
    forall i, j :: 0 <= i < j < |cards| ==> cards[i].definition != cards[j].definition
  }

  /** The uniqueness the interactive add keeps (and import does not). */
  predicate WellFormed(cards: seq<Card>) {
    UniqueTerms(cards) && UniqueDefinitions(cards)
  }

  // ---------------------------------------------------------------------------
  // Lookup
  // ---------------------------------------------------------------------------

  /** The position of the first occurrence of `x` in `xs`, the linear scan every lookup uses. */
  function FirstIndex<T(==)>(xs: seq<T>, x: T): (r: Option<nat>)
    ensures r.Some? ==> r.value < |xs| && xs[r.value] == x
                        && forall j :: 0 <= j < r.value ==> xs[j] != x
    ensures r.None? <==> x !in xs
  {
    if |xs| == 0 then None
    else if xs[0] == x then Some(0)
    else
      match FirstIndex(xs[1..], x)
      case None => None
      case Some(i) => Some(i + 1)
  }

  /** `Card.term_exists`: some card carries the term. */
  function TermExists(cards: seq<Card>, term: string): (b: bool)
    ensures b <==> exists i :: 0 <= i < |cards| && cards[i].term == term
  {
    term in Terms(cards)
  }

  /** `Card.definition_exists`: some card carries the definition. */
  function DefinitionExists(cards: seq<Card>, definition: string): (b: bool)
    ensures b <==> exists i :: 0 <= i < |cards| && cards[i].definition == definition
  {
    definition in Definitions(cards)
  }

  /** A term is on a non-empty list when the first card has it or the rest do. */
  lemma TermExistsCons(cards: seq<Card>, term: string)
    requires |cards| > 0
    ensures TermExists(cards, term) <==> cards[0].term == term || TermExists(cards[1..], term)
  {
    if TermExists(cards, term) && cards[0].term != term {
      var i :| 0 <= i < |cards| && cards[i].term == term;
      assert cards[1..][i - 1].term == term;
    }
  }

  /**
   * `Card.get_card_by_term`: the first card in list order with the term;
   * `None` is the `IndexError` of indexing an empty match list.
   */
  function GetCardByTerm(cards: seq<Card>, term: string): (r: Option<Card>)
    ensures r.Some? <==> TermExists(cards, term)
    ensures r.Some? ==> exists i :: 0 <= i < |cards| && cards[i] == r.value && r.value.term == term
                                    && forall j :: 0 <= j < i ==> cards[j].term != term
  {
    match FirstIndex(Terms(cards), term)
    case None => None
    case Some(i) => Some(cards[i])
  }

  /** `Card.get_card_by_definition`: the first card in list order with the definition. */
  function GetCardByDefinition(cards: seq<Card>, definition: string): (r: Option<Card>)
    ensures r.Some? <==> DefinitionExists(cards, definition)
    ensures r.Some? ==> exists i :: 0 <= i < |cards| && cards[i] == r.value && r.value.definition == definition
                                    && forall j :: 0 <= j < i ==> cards[j].definition != definition
  {
    match FirstIndex(Definitions(cards), definition)
    case None => None
    case Some(i) => Some(cards[i])
  }

  /** With unique terms, the card found by term is the only card with that term. */
  lemma GetCardByTermUnique(cards: seq<Card>, term: string, c: Card)
    requires UniqueTerms(cards)
    requires c in cards && c.term == term
    ensures GetCardByTerm(cards, term) == Some(c)
  {
  }

  // ---------------------------------------------------------------------------
  // Remove
  // ---------------------------------------------------------------------------

  /**
   * `Card.remove_card`: deletes the first card carrying the term and keeps the
   * others in order; `None` is the `IndexError` raised when no card has it.
   * (`list.remove` deletes that very object, which is the first match.)
   */
  function RemoveCard(cards: seq<Card>, term: string): (r: Option<seq<Card>>)
    ensures r.None? <==> !TermExists(cards, term)
    ensures r.Some? ==> |r.value| == |cards| - 1
                        && exists i :: 0 <= i < |cards| && cards[i].term == term
                                       && (forall j :: 0 <= j < i ==> cards[j].term != term)
                                       && r.value == cards[..i] + cards[i + 1..]
  {
    match FirstIndex(Terms(cards), term)
    case None => None
    case Some(i) => Some(cards[..i] + cards[i + 1..])
  }

  /** Removal drops exactly one card with the term: as multisets, the result plus that card is the original. */
  lemma RemoveCardMultiset(cards: seq<Card>, term: string)
    requires TermExists(cards, term)
    ensures exists c: Card :: c.term == term && multiset(RemoveCard(cards, term).value) + multiset{c} == multiset(cards)
  {
    var i := FirstIndex(Terms(cards), term).value;
    assert cards == cards[..i] + [cards[i]] + cards[i + 1..];
  }

  /** On a well-formed list removal keeps it well-formed and leaves no card with the term. */
  lemma RemoveCardWellFormed(cards: seq<Card>, term: string)
    requires WellFormed(cards) && TermExists(cards, term)
    ensures WellFormed(RemoveCard(cards, term).value)
    ensures !TermExists(RemoveCard(cards, term).value, term)
  {
    var i := FirstIndex(Terms(cards), term).value;
    var r := RemoveCard(cards, term).value;
    assert cards[i].term == term;
    forall a, b | 0 <= a < b < |r|
      ensures r[a].term != r[b].term && r[a].definition != r[b].definition
    {
      DropAt(cards, i, a);
      DropAt(cards, i, b);
    }
    forall k | 0 <= k < |r|
      ensures r[k].term != term
    {
      DropAt(cards, i, k);
    }
  }

  /** Dropping position `i` shifts every later element down by one. */
  lemma DropAt(cards: seq<Card>, i: nat, k: nat)
    requires i < |cards| && k < |cards| - 1
    ensures (cards[..i] + cards[i + 1..])[k] == cards[if k < i then k else k + 1]
  {
  }

  /** Without uniqueness a later card with the same term survives the removal. */
  lemma RemoveCardLeavesLaterDuplicate()
    ensures RemoveCard([Card("a", "x"), Card("a", "y")], "a") == Some([Card("a", "y")])
  {
    var cards := [Card("a", "x"), Card("a", "y")];
    assert Terms(cards)[0] == "a";
    assert FirstIndex(Terms(cards), "a") == Some(0);
    assert cards[..0] + cards[1..] == [Card("a", "y")];
  }

  // ---------------------------------------------------------------------------
  // Random sampling
  // ---------------------------------------------------------------------------

  /**
   * `Card.get_random_cards(n)`, i.e. `random.choices(Card.all, k=n)`: `n` cards
   * drawn with replacement. The random source is the parameter `rng`, whose
   * draws `offset`, `offset + 1`, ... pick the positions. A non-positive `n`
   * gives no cards; a positive `n` on an empty list is Python's `IndexError`.
   */
  function GetRandomCards(cards: seq<Card>, n: int, rng: nat -> nat, offset: nat): (r: Option<seq<Card>>)
    ensures r.None? <==> n > 0 && |cards| == 0
    ensures r.Some? ==> |r.value| == (if n > 0 then n else 0)
                        && forall k :: 0 <= k < |r.value| ==> r.value[k] in cards
  {
    if n <= 0 then Some([])
    else if |cards| == 0 then None
    else
      var drawn := seq(n, k requires 0 <= k < n => Pick(cards, rng(offset + k)));
      assert forall k :: 0 <= k < n ==> drawn[k] == Pick(cards, rng(offset + k));
      Some(drawn)
  }

  /** The card a random draw lands on: the draw reduced to a position of the list. */
  function Pick(cards: seq<Card>, draw: nat): (c: Card)
    requires |cards| > 0
    ensures c in cards
  {
    cards[draw % |cards|]
  }

  /** A random source that replays `s`: draw `offset + k` picks the first position of `s[k]`. */
  function DrawFor(cards: seq<Card>, s: seq<Card>, offset: nat, i: nat): nat {
    if offset <= i < offset + |s| then
      match FirstIndex(cards, s[i - offset])
      case Some(p) => p
      case None => 0
    else 0
  }

  /** The replaying source picks a position that holds the card it replays. */
  lemma DrawForPicks(cards: seq<Card>, s: seq<Card>, offset: nat, k: nat)
    requires k < |s| && s[k] in cards
    ensures DrawFor(cards, s, offset, offset + k) < |cards|
    ensures cards[DrawFor(cards, s, offset, offset + k)] == s[k]
  {
  }

  /** A source whose draws point at the cards of `s`, in order, draws `s`. */
  lemma Replay(cards: seq<Card>, s: seq<Card>, rng: nat -> nat, offset: nat)
    requires |s| > 0 && |cards| > 0
    requires forall i :: offset <= i < offset + |s| ==> rng(i) < |cards| && cards[rng(i)] == s[i - offset]
    ensures GetRandomCards(cards, |s|, rng, offset) == Some(s)
  {
    var r := GetRandomCards(cards, |s|, rng, offset).value;
    forall k | 0 <= k < |s|
      ensures r[k] == s[k]
    {
      var p := rng(offset + k);
      ModOfSmaller(p, |cards|);
      assert r[k] == Pick(cards, p);
    }
    assert r == s;
  }

  lemma ModOfSmaller(p: nat, n: nat)
    requires p < n
    ensures p % n == p
  {
  }

  /** Every sequence of `n` registry cards, repeats allowed, is a possible draw. */
  lemma GetRandomCardsComplete(cards: seq<Card>, s: seq<Card>, offset: nat)
    requires |s| > 0
    requires forall k :: 0 <= k < |s| ==> s[k] in cards
    ensures exists rng: nat -> nat :: GetRandomCards(cards, |s|, rng, offset) == Some(s)
  {
    var rng: nat -> nat := (i: nat) => DrawFor(cards, s, offset, i);
    assert s[0] in cards;
    forall i | offset <= i < offset + |s|
      ensures rng(i) < |cards| && cards[rng(i)] == s[i - offset]
    {
      DrawForPicks(cards, s, offset, i - offset);
    }
    Replay(cards, s, rng, offset);
  }

  // ---------------------------------------------------------------------------
  // Mistake statistics
  // ---------------------------------------------------------------------------

  function Keys(stats: Stats): (r: seq<string>)
    ensures |r| == |stats| && forall i :: 0 <= i < |stats| ==> r[i] == stats[i].term
  {
    seq(|stats|, i requires 0 <= i < |stats| => stats[i].term)
  }

  /** Dict keys are unique. */
  predicate UniqueKeys(stats: Stats) {
    forall i, j :: 0 <= i < j < |stats| ==> stats[i].term != stats[j].term
  }

  /** `Card.stats[term]`, `None` being the `KeyError`. */
  function Lookup(stats: Stats, term: string): (r: Option<int>)
    ensures r.Some? <==> term in Keys(stats)
    ensures r.Some? ==> exists i :: 0 <= i < |stats| && stats[i] == Entry(term, r.value)
  {
    match FirstIndex(Keys(stats), term)
    case None => None
    case Some(i) => Some(stats[i].count)
  }

  /** In a dict, the entry found for a key is its only entry. */
  lemma LookupUnique(stats: Stats, i: int)
    requires UniqueKeys(stats) && 0 <= i < |stats|
    ensures Lookup(stats, stats[i].term) == Some(stats[i].count)
  {
    var p := FirstIndex(Keys(stats), stats[i].term).value;
    assert p == i;
  }

  /** `Card.number_of_mistakes`: the counter, 0 when the term has none (the `KeyError` branch). */
  function NumberOfMistakes(stats: Stats, term: string): (r: int)
    ensures term !in Keys(stats) ==> r == 0
    ensures term in Keys(stats) ==> exists i :: 0 <= i < |stats| && stats[i] == Entry(term, r)
  {
    Lookup(stats, term).GetOr(0)
  }

  /** Two key lists that hold `x` at the same positions find it at the same place. */
  lemma FirstIndexSamePositions(a: seq<string>, b: seq<string>, x: string)
    requires |a| == |b|
    requires forall i :: 0 <= i < |a| ==> (a[i] == x <==> b[i] == x)
    ensures FirstIndex(a, x) == FirstIndex(b, x)
  {
    var ra, rb := FirstIndex(a, x), FirstIndex(b, x);
    if ra.Some? {
      assert b[ra.value] == x;
    }
    if rb.Some? {
      assert a[rb.value] == x;
    }
  }

  /** Appending a different element does not move the first occurrence of `x`. */
  lemma FirstIndexAppend(a: seq<string>, y: string, x: string)
    requires x != y
    ensures FirstIndex(a + [y], x) == FirstIndex(a, x)
  {
    var ra, rb := FirstIndex(a + [y], x), FirstIndex(a, x);
    if ra.Some? {
      assert a[ra.value] == x;
    }
    if rb.Some? {
      assert (a + [y])[rb.value] == x;
    }
  }

  /** `Card.stats[term] = value`. */
  function SetCount(stats: Stats, term: string, value: int): Stats {
    match FirstIndex(Keys(stats), term)
    case Some(i) => stats[i := Entry(term, value)]
    case None => stats + [Entry(term, value)]
  }

  /**
   * Dict assignment: an existing key keeps its place and gets the new value; a
   * new key is appended. Every other key reads as before.
   */
  lemma SetCountSpec(stats: Stats, term: string, value: int)
    ensures var r := SetCount(stats, term, value);
            && Keys(r) == (if term in Keys(stats) then Keys(stats) else Keys(stats) + [term])
            && Lookup(r, term) == Some(value)
            && (forall u :: u != term ==> Lookup(r, u) == Lookup(stats, u))
            && (UniqueKeys(stats) ==> UniqueKeys(r))
  {
    var r := SetCount(stats, term, value);
    match FirstIndex(Keys(stats), term)
    case Some(i) =>
      assert Keys(r) == Keys(stats);
      forall u | u != term
        ensures Lookup(r, u) == Lookup(stats, u)
      {
        FirstIndexSamePositions(Keys(r), Keys(stats), u);
      }
    case None =>
      assert Keys(r) == Keys(stats) + [term];
      forall u | u != term
        ensures Lookup(r, u) == Lookup(stats, u)
      {
        FirstIndexAppend(Keys(stats), term, u);
      }
  }

  /** After an assignment the term reads the assigned value and every other term reads as before. */
  lemma NumberOfMistakesAfterSet(stats: Stats, term: string, value: int, u: string)
    ensures NumberOfMistakes(SetCount(stats, term, value), u)
            == if u == term then value else NumberOfMistakes(stats, u)
  {
    SetCountSpec(stats, term, value);
  }

  /**
   * `Card.inc_mistakes`: the term's counter goes up by one (from 0 when absent,
   * so it becomes 1), nothing else changes, and an existing key keeps its place.
   */
  function IncMistakes(stats: Stats, term: string): (r: Stats)
    ensures NumberOfMistakes(r, term) == NumberOfMistakes(stats, term) + 1
    ensures forall u :: u != term ==> NumberOfMistakes(r, u) == NumberOfMistakes(stats, u)
    ensures Keys(r) == if term in Keys(stats) then Keys(stats) else Keys(stats) + [term]
    ensures UniqueKeys(stats) ==> UniqueKeys(r)
  {
    match Lookup(stats, term)
    case Some(n) => SetCountSpec(stats, term, n + 1); SetCount(stats, term, n + 1)
    case None => SetCountSpec(stats, term, 1); SetCount(stats, term, 1)
  }

  /**
   * `Card.reset_stats`: `clear()` empties the counters, so every term reads 0
   * mistakes and a term counted later goes in as a new key, after those counted
   * before it.
   */
  function ResetStats(stats: Stats): (r: Stats)
    ensures |r| == 0
    ensures forall u :: NumberOfMistakes(r, u) == 0
    ensures UniqueKeys(r)
  {
    []
  }
}

=== FILE: hardest.dfy ===
/**
 * `Card.get_hardest_cards` and `show_hardest_card`: which terms carry the most
 * mistakes, and which of the three messages the program prints about them.
 */
module Hardest {
  import opened Cards

  /** `max(Card.stats.values())`: a counter that some entry holds and no entry exceeds. */
  function MaxCount(stats: Stats): (m: int)
    requires |stats| > 0
    ensures exists i :: 0 <= i < |stats| && stats[i].count == m
    ensures forall i :: 0 <= i < |stats| ==> stats[i].count <= m
  {
    if |stats| == 1 then stats[0].count
    else
      var rest := MaxCount(stats[1..]);
      if stats[0].count >= rest then stats[0].count else rest
  }

  /**
   * The reference answer: the terms whose counter equals `m`, in the order of
   * the statistics (the dict's insertion order).
   */
  function TermsWithCount(stats: Stats, m: int): seq<string> {
    if |stats| == 0 then []
    else
      var prev := TermsWithCount(stats[..|stats| - 1], m);
      if stats[|stats| - 1].count == m then prev + [stats[|stats| - 1].term] else prev
  }

  /** A term is listed exactly when some entry pairs it with `m`, and the list is no longer than the statistics. */
  lemma {:induction false} TermsWithCountMembers(stats: Stats, m: int)
    ensures |TermsWithCount(stats, m)| <= |stats|
    ensures forall t :: t in TermsWithCount(stats, m) <==> exists i :: 0 <= i < |stats| && stats[i] == Entry(t, m)
    decreases |stats|
  {
    if |stats| > 0 {
      var init := stats[..|stats| - 1];
      TermsWithCountMembers(init, m);
      assert forall i :: 0 <= i < |init| ==> init[i] == stats[i];
    }
  }

  /** What `get_hardest_cards` returns, as a function of the statistics. */
  function Hardest(stats: Stats): (seq<string>, int) {
    if |stats| == 0 then ([], 0)
    else (TermsWithCount(stats, MaxCount(stats)), MaxCount(stats))
  }

  /** One more entry adds its term to the collected ones exactly when it reaches `m`. */
  lemma TermsWithCountNext(stats: Stats, i: nat, m: int)
    requires i < |stats|
    ensures TermsWithCount(stats[..i + 1], m)
            == if stats[i].count == m then TermsWithCount(stats[..i], m) + [stats[i].term]
               else TermsWithCount(stats[..i], m)
  {
    assert stats[..i + 1][..i] == stats[..i];
  }

  /**
   * `Card.get_hardest_cards`, with its loop as written: the running maximum
   * starts at the overall maximum, so the branch for a strictly greater counter
   * never runs and the loop only collects the terms that reach the maximum.
   */
  method GetHardestCards(stats: Stats) returns (hardest: seq<string>, max: int)
    ensures |stats| == 0 ==> hardest == [] && max == 0
    ensures |stats| > 0 ==> (exists i :: 0 <= i < |stats| && stats[i].count == max)
                            && (forall i :: 0 <= i < |stats| ==> stats[i].count <= max)
    ensures |stats| > 0 ==> |hardest| > 0
    ensures hardest == TermsWithCount(stats, max)
    ensures (hardest, max) == Hardest(stats)
  {
    if |stats| == 0 {
      return [], 0;
    }
    max := MaxCount(stats);
    hardest := [];
    var i := 0;
    while i < |stats|
      invariant 0 <= i <= |stats|
      invariant max == MaxCount(stats)
      invariant hardest == TermsWithCount(stats[..i], max)
    {
      var e := stats[i];
      TermsWithCountNext(stats, i, max);
      if e.count > max {
        // unreachable: `max` already bounds every counter
        assert false;
        max := e.count;
        hardest := [e.term];
      } else if e.count == max {
        hardest := hardest + [e.term];
      }
      assert hardest == TermsWithCount(stats[..i + 1], max);
      i := i + 1;
    }
    assert stats[..i] == stats;
    var j :| 0 <= j < |stats| && stats[j].count == max;
    assert stats[j] == Entry(stats[j].term, max);
    TermsWithCountMembers(stats, max);
  }

  /** The outcome `show_hardest_card` prints. */
  datatype Report =
    | NoErrors
    | OneHardest(term: string, mistakes: int)
    | ManyHardest(terms: seq<string>, mistakes: int)

  /** `show_hardest_card`'s choice of message for a result of `get_hardest_cards`. */
  function ShowHardest(hardest: seq<string>, max: int): Report {
    if max == 0 then NoErrors
    else if |hardest| == 1 then OneHardest(hardest[0], max)
    else ManyHardest(hardest, max)
  }

  function HardestReport(stats: Stats): Report {
    var (hardest, max) := Hardest(stats);
    ShowHardest(hardest, max)
  }

  /**
   * `show_hardest_card`: "no errors" exactly when the statistics are empty or
   * their maximum is 0; otherwise the singular message names the one entry
   * that reaches the maximum, and the plural one lists at least two terms that
   * reach it, in order.
   */
  method ShowHardestCard(stats: Stats) returns (r: Report)
    ensures r == HardestReport(stats)
    ensures r.NoErrors? <==> |stats| == 0 || (|stats| > 0 && MaxCount(stats) == 0)
    ensures r.OneHardest? ==> r.mistakes != 0
                              && (exists i :: 0 <= i < |stats| && stats[i] == Entry(r.term, r.mistakes))
                              && (forall i :: 0 <= i < |stats| ==> stats[i].count <= r.mistakes)
                              && (forall i :: 0 <= i < |stats| && stats[i].count == r.mistakes ==> stats[i].term == r.term)
    ensures r.ManyHardest? ==> r.mistakes != 0 && |r.terms| >= 2
                               && r.terms == TermsWithCount(stats, r.mistakes)
                               && (forall i :: 0 <= i < |stats| ==> stats[i].count <= r.mistakes)
  {
    var hardest, max := GetHardestCards(stats);
    r := ShowHardest(hardest, max);
    TermsWithCountMembers(stats, max);
    if r.OneHardest? {
      assert hardest == [r.term];
      forall i | 0 <= i < |stats| && stats[i].count == r.mistakes
        ensures stats[i].term == r.term
      {
        assert stats[i] == Entry(stats[i].term, max);
        assert stats[i].term in hardest;
      }
    }
  }

  /** The worked example {A: 2, B: 3, C: 3}: the hardest terms are B and C, with 3 mistakes. */
  lemma HardestExample()
    ensures Hardest([Entry("A", 2), Entry("B", 3), Entry("C", 3)]) == (["B", "C"], 3)
  {
    var a, b, c := Entry("A", 2), Entry("B", 3), Entry("C", 3);
    var s := [a, b, c];
    assert s[1..] == [b, c] && [b, c][1..] == [c];
    assert MaxCount(s) == 3;
    assert s[..2] == [a, b] && [a, b][..1] == [a] && [a][..0] == [];
    assert TermsWithCount([a], 3) == [];
    assert TermsWithCount([a, b], 3) == ["B"];
    assert TermsWithCount(s, 3) == ["B", "C"];
  }
}

=== FILE: quiz.dfy ===
/** The quiz: `ask_for_card` judges one answer and `ask` runs a round over drawn cards. */
module Quiz {
  import opened Wrappers
  import opened Cards

  /** What `ask_for_card` prints about an answer. */
  datatype Verdict =
    | Correct
      /** wrong, but the answer is the definition of the card `other` */
    | WrongButDefines(expected: string, other: string)
    | Wrong(expected: string)

  /**
   * `ask_for_card`: the answer is right exactly when it equals the definition
   * (case-sensitively); a wrong answer that is some card's definition reports
   * the term of the first such card in list order.
   */
  function AskForCard(cards: seq<Card>, card: Card, answer: string): (v: Verdict)
    ensures v.Correct? <==> answer == card.definition
    ensures v.WrongButDefines? <==> answer != card.definition && DefinitionExists(cards, answer)
    ensures v.WrongButDefines? ==> v.expected == card.definition
                                   && exists i :: 0 <= i < |cards| && cards[i] == Card(v.other, answer)
                                                  && forall j :: 0 <= j < i ==> cards[j].definition != answer
    ensures v.Wrong? ==> v.expected == card.definition
  {
    if answer == card.definition then Correct
    else
      match GetCardByDefinition(cards, answer)
      case Some(c) => WrongButDefines(card.definition, c.term)
      case None => Wrong(card.definition)
  }

  /** Existing keys keep their places across an increment. */
  lemma IncMistakesKeepsPlaces(stats: Stats, term: string)
    ensures |stats| <= |IncMistakes(stats, term)|
    ensures forall i :: 0 <= i < |stats| ==> IncMistakes(stats, term)[i].term == stats[i].term
  {
    var r := IncMistakes(stats, term);
    assert forall i :: 0 <= i < |stats| ==> Keys(r)[i] == Keys(stats)[i];
  }

  /** How many of the answers are wrong answers about a card with the term. */
  function WrongAnswers(drawn: seq<Card>, answers: seq<string>, term: string): nat
    requires |answers| == |drawn|
  {
    if |drawn| == 0 then 0
    else
      (if drawn[0].term == term && answers[0] != drawn[0].definition then 1 else 0)
      + WrongAnswers(drawn[1..], answers[1..], term)
  }

  /**
   * `ask` after the cards are drawn: one verdict per drawn card, and a mistake
   * counted for every wrong answer (see `AskCountsMistakes`).
   */
  function Ask(cards: seq<Card>, stats: Stats, drawn: seq<Card>, answers: seq<string>): (r: (Stats, seq<Verdict>))
    requires |answers| == |drawn|
    ensures |r.1| == |drawn|
    ensures forall k :: 0 <= k < |drawn| ==> r.1[k] == AskForCard(cards, drawn[k], answers[k])
    ensures UniqueKeys(stats) ==> UniqueKeys(r.0)
    decreases |drawn|
  {
    if |drawn| == 0 then (stats, [])
    else
      var card := drawn[0];
      var stats' := if answers[0] != card.definition then IncMistakes(stats, card.term) else stats;
      var rest := Ask(cards, stats', drawn[1..], answers[1..]);
      (rest.0, [AskForCard(cards, card, answers[0])] + rest.1)
  }

  /**
   * Every term's mistake counter goes up by the number of wrong answers about
   * it, so right answers and cards never asked leave their counters alone.
   */
  lemma {:induction false} AskCountsMistakes(cards: seq<Card>, stats: Stats, drawn: seq<Card>, answers: seq<string>)
    requires |answers| == |drawn|
    ensures forall t :: NumberOfMistakes(Ask(cards, stats, drawn, answers).0, t)
                        == NumberOfMistakes(stats, t) + WrongAnswers(drawn, answers, t)
    decreases |drawn|
  {
    if |drawn| > 0 {
      var card := drawn[0];
      var wrong := answers[0] != card.definition;
      var stats' := if wrong then IncMistakes(stats, card.term) else stats;
      AskCountsMistakes(cards, stats', drawn[1..], answers[1..]);
      var r := Ask(cards, stats, drawn, answers).0;
      assert r == Ask(cards, stats', drawn[1..], answers[1..]).0;
      forall t
        ensures NumberOfMistakes(r, t) == NumberOfMistakes(stats, t) + WrongAnswers(drawn, answers, t)
      {
        var step := if card.term == t && wrong then 1 else 0;
        assert NumberOfMistakes(stats', t) == NumberOfMistakes(stats, t) + step;
        assert WrongAnswers(drawn, answers, t) == step + WrongAnswers(drawn[1..], answers[1..], t);
      }
    }
  }

  /** A round of questions keeps every existing key in its place; new keys come after them. */
  lemma {:induction false} AskKeepsPlaces(cards: seq<Card>, stats: Stats, drawn: seq<Card>, answers: seq<string>)
    requires |answers| == |drawn|
    ensures var r := Ask(cards, stats, drawn, answers).0;
            |stats| <= |r| && forall i :: 0 <= i < |stats| ==> r[i].term == stats[i].term
    decreases |drawn|
  {
    if |drawn| > 0 {
      var card := drawn[0];
      var stats' := if answers[0] != card.definition then IncMistakes(stats, card.term) else stats;
      IncMistakesKeepsPlaces(stats, card.term);
      AskKeepsPlaces(cards, stats', drawn[1..], answers[1..]);
    }
  }

  /** The worked session: capital/Paris and language/Dart; answering "Dart" for "capital" names "language" and counts one mistake. */
  lemma AskExample()
    ensures var cards := [Card("capital", "Paris"), Card("language", "Dart")];
            && Ask(cards, [], [cards[0]], ["Paris"]).1 == [Correct]
            && NumberOfMistakes(Ask(cards, [], [cards[0]], ["Paris"]).0, "capital") == 0
            && Ask(cards, [], [cards[0]], ["Dart"]).1 == [WrongButDefines("Paris", "language")]
            && NumberOfMistakes(Ask(cards, [], [cards[0]], ["Dart"]).0, "capital") == 1
  {
    var cards := [Card("capital", "Paris"), Card("language", "Dart")];
    assert Definitions(cards)[1] == "Dart";
    assert cards[1] == Card("language", "Dart");
    assert Ask(cards, [], [cards[0]], ["Paris"]).0 == [];
    assert Ask(cards, [], [cards[0]], ["Dart"]).0 == IncMistakes([], "capital");
  }
}

=== FILE: session.dfy ===
/**
 * The program around the registry: the startup-argument loop, the interactive
 * command loop of `run`, and the commands it dispatches to. Console input is a
 * sequence of lines (Python's `input()` without the newline); running out of
 * lines is the `EOFError` that ends the process. Files are a map from path to
 * text; the random source and the console log come from an `Env`.
 */
module Session {
  import opened Wrappers
  import opened Text
  import opened Cards
  import opened Hardest
  import opened Quiz
  import opened CardFile

  /** Everything a session changes: the registry, the files, and how many random draws were used. */
  datatype State = State(reg: Registry, files: map<string, string>, draws: nat)

  /**
   * What a session takes from outside: the random source (see `GetRandomCards`)
   * and the text of the console log that `log` copies out. The log holds every
   * line printed and typed so far, which the model does not track, so it is given
   * as a function of how many input lines are still unread when it is read.
   */
  datatype Env = Env(rng: nat -> nat, log: nat -> string)

  /** Which outcome a command reports to the user. */
  datatype Event =
    | Asked(verdicts: seq<Verdict>)
    | CardAdded(card: Card)
    | CardRemoved
    | NoSuchCard(term: string)
    | Loaded(count: nat)
    | FileNotFound
    | Saved(count: nat)
    | LogSaved
    | HardestShown(report: Report)
    | StatsReset
    | Bye
    | UnknownArgument(arg: string)

  /** An exception nothing catches: the process stops with a traceback. */
  datatype Fault =
    | EndOfInput                    // `input()` at end of file
    | NotANumber(text: string)      // `int()` on the repeat count of `ask`
    | NoCardsToDraw                 // `random.choices` on an empty list
    | BadCardLine(error: LineError) // a malformed line in an interactive import

  /** The result of one turn of the command loop. */
  datatype Turn =
    | Continue(st: State, rest: seq<string>, events: seq<Event>)
    | Stop(st: State, rest: seq<string>, events: seq<Event>)
    | Crash(fault: Fault)

  /** `rest` is what is left of `input` after at least one line was read. */
  predicate Consumes(input: seq<string>, rest: seq<string>) {
    |rest| < |input| && rest == input[|input| - |rest|..]
  }

  // ---------------------------------------------------------------------------
  // add_card
  // ---------------------------------------------------------------------------

  /** The first input line that is not among `taken`: the re-prompting loops of `add_card`. */
  function FirstFresh(taken: seq<string>, input: seq<string>): (r: Option<nat>)
    ensures r.Some? ==> r.value < |input| && input[r.value] !in taken
                        && forall j :: 0 <= j < r.value ==> input[j] in taken
    ensures r.None? ==> forall j :: 0 <= j < |input| ==> input[j] in taken
  {
    if |input| == 0 then None
    else if input[0] !in taken then Some(0)
    else
      match FirstFresh(taken, input[1..])
      case None => None
      case Some(i) => Some(i + 1)
  }

  /**
   * `add_card`: the term is the first line that is not yet a term, the
   * definition the first line after it that is not yet a definition; the card
   * goes at the end. `None` is the end of input.
   */
  function AddCard(cards: seq<Card>, input: seq<string>): (r: Option<(Card, seq<string>)>)
    ensures r.Some? ==> var (card, rest) := r.value;
                        && !TermExists(cards, card.term)
                        && !DefinitionExists(cards, card.definition)
                        && |rest| + 2 <= |input| && Consumes(input, rest)
                        && card.term in input && card.definition in input
  {
    match FirstFresh(Terms(cards), input)
    case None => None
    case Some(i) =>
      var after := input[i + 1..];
      match FirstFresh(Definitions(cards), after)
      case None => None
      case Some(j) =>
        assert after[j] == input[i + 1 + j];
        Some((Card(input[i], after[j]), after[j + 1..]))
  }

  /** `add_card` ends with a card exactly when a fresh term is followed, later on, by a fresh definition. */
  lemma AddCardSucceeds(cards: seq<Card>, input: seq<string>)
    ensures AddCard(cards, input).Some? <==>
              exists i, k :: 0 <= i < k < |input| && !TermExists(cards, input[i]) && !DefinitionExists(cards, input[k])
  {
    match FirstFresh(Terms(cards), input)
    case None =>
      forall i | 0 <= i < |input| ensures TermExists(cards, input[i]) {}
    case Some(i) =>
      var after := input[i + 1..];
      match FirstFresh(Definitions(cards), after)
      case None =>
        forall i', k | 0 <= i' < k < |input| && !TermExists(cards, input[i'])
          ensures DefinitionExists(cards, input[k])
        {
          assert input[k] == after[k - i - 1];
        }
      case Some(j) =>
        assert after[j] == input[i + 1 + j];
  }

  /**
   * The card `add_card` makes pairs the first line that is not yet a term with
   * the first line after it that is not yet a definition, and input resumes
   * after that definition.
   */
  lemma AddCardTakesFirstFresh(cards: seq<Card>, input: seq<string>) returns (i: nat, k: nat)
    requires AddCard(cards, input).Some?
    ensures i < k < |input|
    ensures AddCard(cards, input).value == (Card(input[i], input[k]), input[k + 1..])
    ensures !TermExists(cards, input[i]) && forall j :: 0 <= j < i ==> TermExists(cards, input[j])
    ensures !DefinitionExists(cards, input[k]) && forall j :: i < j < k ==> DefinitionExists(cards, input[j])
  {
    i := FirstFresh(Terms(cards), input).value;
    var after := input[i + 1..];
    var j := FirstFresh(Definitions(cards), after).value;
    k := i + 1 + j;
    assert after[j] == input[k];
    assert after[j + 1..] == input[k + 1..];
    forall m | i < m < k ensures DefinitionExists(cards, input[m]) {
      assert input[m] == after[m - i - 1];
    }
  }

  /** The card `add_card` appends keeps terms and definitions unique. */
  lemma AddCardWellFormed(cards: seq<Card>, input: seq<string>)
    requires WellFormed(cards) && AddCard(cards, input).Some?
    ensures WellFormed(cards + [AddCard(cards, input).value.0])
  {
    var card := AddCard(cards, input).value.0;
    var r := cards + [card];
    forall i, j | 0 <= i < j < |r|
      ensures r[i].term != r[j].term && r[i].definition != r[j].definition
    {
      if j == |cards| {
        assert r[i] == cards[i];
      }
    }
  }

  /** A taken term and a taken definition are each asked for again. */
  lemma AddCardRetries()
    ensures AddCard([Card("a", "x")], ["a", "b", "x", "y", "ask"]) == Some((Card("b", "y"), ["ask"]))
  {
    var cards := [Card("a", "x")];
    var input := ["a", "b", "x", "y", "ask"];
    assert Terms(cards) == ["a"];
    assert Definitions(cards) == ["x"];
    assert FirstFresh(["a"], input[1..]) == Some(0);
    assert FirstFresh(["a"], input) == Some(1);
    var after := input[2..];
    assert after == ["x", "y", "ask"];
    assert FirstFresh(["x"], after[1..]) == Some(0);
    assert FirstFresh(["x"], after) == Some(1);
    assert after[2..] == ["ask"];
  }

  // ---------------------------------------------------------------------------
  // The commands of `run`
  // ---------------------------------------------------------------------------

  /**
   * `ask`: read the repeat count, draw that many cards, read one answer per card
   * and count a mistake for every wrong one.
   */
  function DoAsk(st: State, input: seq<string>, rng: nat -> nat): (r: Turn)
    ensures r.Continue? ==> Consumes(input, r.rest) && r.st.reg.cards == st.reg.cards
    ensures !r.Stop?
    ensures r.Crash? && r.fault.NoCardsToDraw? ==> |st.reg.cards| == 0
    ensures |input| > 0 && ParseInt(input[0]).Some? && ParseInt(input[0]).value > 0 && |st.reg.cards| == 0 ==>
              r == Crash(NoCardsToDraw)
    ensures |input| > 0 && ParseInt(input[0]).None? ==> r == Crash(NotANumber(input[0]))
    ensures |input| > 0 && ParseInt(input[0]).Some? && ParseInt(input[0]).value <= 0 ==>
              r == Continue(st, input[1..], [Asked([])])
  {
    if |input| == 0 then Crash(EndOfInput)
    else
      match ParseInt(input[0])
      case None => Crash(NotANumber(input[0]))
      case Some(n) =>
        match GetRandomCards(st.reg.cards, n, rng, st.draws)
        case None => Crash(NoCardsToDraw)
        case Some(drawn) => AnswerDrawn(st, drawn, input[1..])
  }

  /** The second half of `ask`: one answer line per drawn card, in draw order. */
  function AnswerDrawn(st: State, drawn: seq<Card>, input: seq<string>): (r: Turn)
    ensures r.Continue? ==> |drawn| <= |input| && r.rest == input[|drawn|..]
                            && r.st.reg.cards == st.reg.cards && r.st.files == st.files
                            && r.st.draws == st.draws + |drawn|
    ensures r.Crash? <==> |input| < |drawn|
    ensures r.Crash? ==> r.fault == EndOfInput
    ensures !r.Stop?
  {
    if |input| < |drawn| then Crash(EndOfInput)
    else
      var asked := Ask(st.reg.cards, st.reg.stats, drawn, input[..|drawn|]);
      Continue(State(st.reg.(stats := asked.0), st.files, st.draws + |drawn|), input[|drawn|..], [Asked(asked.1)])
  }

  /** Each drawn card gets a verdict on its answer line, and each wrong answer counts one mistake. */
  lemma AnswerDrawnCounts(st: State, drawn: seq<Card>, input: seq<string>)
    requires |drawn| <= |input|
    ensures var r := AnswerDrawn(st, drawn, input);
            && r.Continue? && |r.events| == 1 && r.events[0].Asked? && |r.events[0].verdicts| == |drawn|
            && (forall k :: 0 <= k < |drawn| ==> r.events[0].verdicts[k] == AskForCard(st.reg.cards, drawn[k], input[k]))
            && (forall t :: NumberOfMistakes(r.st.reg.stats, t)
                            == NumberOfMistakes(st.reg.stats, t) + WrongAnswers(drawn, input[..|drawn|], t))
  {
    AskCountsMistakes(st.reg.cards, st.reg.stats, drawn, input[..|drawn|]);
  }

  /**
   * A positive count `n` draws `n` cards and reads the next `n` lines as the
   * answers; too few lines is the end of input.
   */
  lemma DoAskReadsAnswers(st: State, input: seq<string>, rng: nat -> nat)
    requires |input| > 0 && ParseInt(input[0]).Some? && ParseInt(input[0]).value > 0 && |st.reg.cards| > 0
    ensures var n := ParseInt(input[0]).value;
            var r := DoAsk(st, input, rng);
            && (|input| <= n ==> r == Crash(EndOfInput))
            && (|input| > n ==>
                  && r.Continue? && r.rest == input[n + 1..]
                  && r.st.draws == st.draws + n && r.st.files == st.files && r.st.reg.cards == st.reg.cards)
  {
    var n := ParseInt(input[0]).value;
    var drawn := GetRandomCards(st.reg.cards, n, rng, st.draws).value;
    assert DoAsk(st, input, rng) == AnswerDrawn(st, drawn, input[1..]);
    assert |input| > n ==> input[1..][n..] == input[n + 1..];
  }

  /** Each answer line gets a verdict on its drawn card, and each wrong answer counts one mistake. */
  lemma DoAskCountsMistakes(st: State, input: seq<string>, rng: nat -> nat)
    requires |input| > 0 && ParseInt(input[0]).Some? && ParseInt(input[0]).value > 0 && |st.reg.cards| > 0
    requires |input| > ParseInt(input[0]).value
    ensures var n := ParseInt(input[0]).value;
            var drawn := GetRandomCards(st.reg.cards, n, rng, st.draws).value;
            var r := DoAsk(st, input, rng);
            && r.Continue? && |r.events| == 1 && r.events[0].Asked? && |r.events[0].verdicts| == n
            && (forall k :: 0 <= k < n ==> r.events[0].verdicts[k] == AskForCard(st.reg.cards, drawn[k], input[k + 1]))
            && (forall t :: NumberOfMistakes(r.st.reg.stats, t)
                            == NumberOfMistakes(st.reg.stats, t) + WrongAnswers(drawn, input[1..n + 1], t))
  {
    var n := ParseInt(input[0]).value;
    var drawn := GetRandomCards(st.reg.cards, n, rng, st.draws).value;
    var answers := input[1..];
    assert DoAsk(st, input, rng) == AnswerDrawn(st, drawn, answers);
    AnswerDrawnCounts(st, drawn, answers);
    assert answers[..n] == input[1..n + 1];
    forall k | 0 <= k < n
      ensures answers[k] == input[k + 1]
    {
    }
  }

  /** `add_card`: the new card goes at the end, and the cards stay free of repeated terms and definitions. */
  function DoAdd(st: State, input: seq<string>): (r: Turn)
    ensures r.Continue? ==> Consumes(input, r.rest) && r.st.reg.stats == st.reg.stats
                            && r.st.files == st.files && r.st.draws == st.draws
                            && AddCard(st.reg.cards, input).Some?
                            && r.st.reg.cards == st.reg.cards + [AddCard(st.reg.cards, input).value.0]
                            && r.rest == AddCard(st.reg.cards, input).value.1
    ensures r.Crash? <==> AddCard(st.reg.cards, input).None?
    ensures r.Crash? ==> r.fault == EndOfInput
    ensures WellFormed(st.reg.cards) && r.Continue? ==> WellFormed(r.st.reg.cards)
    ensures !r.Stop?
  {
    match AddCard(st.reg.cards, input)
    case None => Crash(EndOfInput)
    case Some((card, rest)) =>
      assert WellFormed(st.reg.cards) ==> WellFormed(st.reg.cards + [card]) by {
        if WellFormed(st.reg.cards) {
          AddCardWellFormed(st.reg.cards, input);
        }
      }
      Continue(st.(reg := st.reg.(cards := st.reg.cards + [card])), rest, [CardAdded(card)])
  }

  /** `remove_card`: the first card with the term goes; its counter, if any, stays. */
  function DoRemove(st: State, input: seq<string>): (r: Turn)
    ensures r.Continue? ==> Consumes(input, r.rest) && r.st.reg.stats == st.reg.stats
    ensures r.Continue? && r.events == [CardRemoved] ==> |r.st.reg.cards| == |st.reg.cards| - 1
    ensures r.Continue? && r.events != [CardRemoved] ==> r.st == st && !TermExists(st.reg.cards, input[0])
    ensures r.Crash? <==> |input| == 0
    ensures |input| > 0 && TermExists(st.reg.cards, input[0]) ==>
              r == Continue(st.(reg := st.reg.(cards := RemoveCard(st.reg.cards, input[0]).value)), input[1..], [CardRemoved])
    ensures |input| > 0 && !TermExists(st.reg.cards, input[0]) ==>
              r == Continue(st, input[1..], [NoSuchCard(input[0])])
  {
    if |input| == 0 then Crash(EndOfInput)
    else
      match RemoveCard(st.reg.cards, input[0])
      case None => Continue(st, input[1..], [NoSuchCard(input[0])])
      case Some(cards) => Continue(st.(reg := st.reg.(cards := cards)), input[1..], [CardRemoved])
  }

  /**
   * `import` typed at the prompt: a missing file is reported; a file that reads
   * through leaves the registry its lines build; the first malformed line escapes
   * as an exception.
   */
  function DoImport(st: State, input: seq<string>): (r: Turn)
    ensures r.Continue? ==> Consumes(input, r.rest)
    ensures r.Continue? && r.events == [FileNotFound] ==> r.st == st && input[0] !in st.files
    ensures r.Crash? && r.fault.BadCardLine? ==> |input| > 0 && input[0] in st.files
    ensures !r.Stop?
    ensures r.Crash? <==> |input| == 0 || (input[0] in st.files && ImportText(st.reg, st.files[input[0]]).error.Some?)
    ensures |input| > 0 && input[0] !in st.files ==> r == Continue(st, input[1..], [FileNotFound])
    ensures |input| > 0 && input[0] in st.files ==>
              var result := ImportText(st.reg, st.files[input[0]]);
              && (result.error.None? ==> r == Continue(st.(reg := result.reg), input[1..], [Loaded(result.loaded)]))
              && (result.error.Some? ==> r == Crash(BadCardLine(result.error.value)))
  {
    if |input| == 0 then Crash(EndOfInput)
    else if input[0] !in st.files then Continue(st, input[1..], [FileNotFound])
    else
      var result := ImportText(st.reg, st.files[input[0]]);
      match result.error
      case Some(e) => Crash(BadCardLine(e))
      case None => Continue(st.(reg := result.reg), input[1..], [Loaded(result.loaded)])
  }

  /** Writes the registry to a file. */
  function Export(st: State, path: string): (r: State)
    ensures path in r.files && r.files[path] == ExportText(st.reg.cards, st.reg.stats)
    ensures forall p :: p in st.files && p != path ==> p in r.files && r.files[p] == st.files[p]
    ensures r.reg == st.reg && r.draws == st.draws
    ensures r.files.Keys == st.files.Keys + {path}
  {
    st.(files := st.files[path := ExportText(st.reg.cards, st.reg.stats)])
  }

  /** `export_cards` announces the total once per card written, so an empty registry says nothing. */
  function SavedMessages(n: nat): (r: seq<Event>)
    ensures |r| == n && forall k :: 0 <= k < n ==> r[k] == Saved(n)
  {
    seq(n, _ => Saved(n))
  }

  function DoExport(st: State, input: seq<string>): (r: Turn)
    ensures r.Continue? ==> Consumes(input, r.rest) && r.st.reg == st.reg
                            && input[0] in r.st.files
                            && r.st.files[input[0]] == ExportText(st.reg.cards, st.reg.stats)
    ensures r.Continue? ==> r.rest == input[1..] && r.st.draws == st.draws
                            && r.st.files.Keys == st.files.Keys + {input[0]}
                            && (forall p :: p in st.files && p != input[0] ==> r.st.files[p] == st.files[p])
                            && r.events == SavedMessages(|st.reg.cards|)
    ensures r.Crash? <==> |input| == 0
    ensures !r.Stop?
  {
    if |input| == 0 then Crash(EndOfInput)
    else Continue(Export(st, input[0]), input[1..], SavedMessages(|st.reg.cards|))
  }

  /**
   * `ask_for_log`: the file named by the next line is overwritten with the log
   * as it stands once that name has been read.
   */
  function DoLog(st: State, input: seq<string>, log: nat -> string): (r: Turn)
    ensures r.Crash? <==> |input| == 0
    ensures r.Continue? ==> Consumes(input, r.rest) && r.st.reg == st.reg && r.st.draws == st.draws
                            && input[0] in r.st.files && r.st.files[input[0]] == log(|r.rest|)
                            && forall p :: p in st.files && p != input[0] ==> p in r.st.files && r.st.files[p] == st.files[p]
    ensures r.Continue? ==> r.rest == input[1..] && r.st.files.Keys == st.files.Keys + {input[0]} && r.events == [LogSaved]
    ensures !r.Stop?
  {
    if |input| == 0 then Crash(EndOfInput)
    else Continue(st.(files := st.files[input[0] := log(|input| - 1)]), input[1..], [LogSaved])
  }

  /** The actions `run` recognises; any other line is `NoAction`. */
  datatype Action = AskAction | AddAction | RemoveAction | ImportAction | ExportAction
                  | LogAction | HardestAction | ResetAction | ExitAction | NoAction

  function ParseAction(line: string): Action {
    if line == "ask" then AskAction
    else if line == "add" then AddAction
    else if line == "remove" then RemoveAction
    else if line == "import" then ImportAction
    else if line == "export" then ExportAction
    else if line == "log" then LogAction
    else if line == "hardest card" then HardestAction
    else if line == "reset stats" then ResetAction
    else if line == "exit" then ExitAction
    else NoAction
  }

  /**
   * One turn of `run`: read an action and perform it. Only the exact line
   * `exit` stops the loop, every other turn consumes input, and a line that
   * names no action changes nothing.
   */
  function Step(st: State, input: seq<string>, env: Env): (r: Turn)
    ensures r.Continue? ==> Consumes(input, r.rest)
    ensures r.Stop? <==> |input| > 0 && input[0] == "exit"
    ensures r.Stop? ==> r.st == st && r.rest == input[1..]
    ensures |input| == 0 ==> r == Crash(EndOfInput)
  {
    if |input| == 0 then Crash(EndOfInput)
    else
      var rest := input[1..];
      ParseActionWords(input[0]);
      match ParseAction(input[0])
      case AskAction => DoAsk(st, rest, env.rng)
      case AddAction => DoAdd(st, rest)
      case RemoveAction => DoRemove(st, rest)
      case ImportAction => DoImport(st, rest)
      case ExportAction => DoExport(st, rest)
      case LogAction => DoLog(st, rest, env.log)
      case HardestAction => Continue(st, rest, [HardestShown(HardestReport(st.reg.stats))])
      case ResetAction => Continue(st.(reg := st.reg.(stats := ResetStats(st.reg.stats))), rest, [StatsReset])
      case ExitAction => Stop(st, rest, [Bye])
      case NoAction => Continue(st, rest, [])
  }

  /** Which command word each action stands for. */
  lemma ParseActionWords(line: string)
    ensures ParseAction(line) == AskAction <==> line == "ask"
    ensures ParseAction(line) == AddAction <==> line == "add"
    ensures ParseAction(line) == RemoveAction <==> line == "remove"
    ensures ParseAction(line) == ImportAction <==> line == "import"
    ensures ParseAction(line) == ExportAction <==> line == "export"
    ensures ParseAction(line) == LogAction <==> line == "log"
    ensures ParseAction(line) == HardestAction <==> line == "hardest card"
    ensures ParseAction(line) == ResetAction <==> line == "reset stats"
    ensures ParseAction(line) == ExitAction <==> line == "exit"
  {
  }

  /**
   * Each command word of `run` runs its own handler on the lines after it;
   * `hardest card` only reports, and `reset stats` zeroes every counter.
   */
  lemma StepRunsCommand(st: State, input: seq<string>, env: Env)
    requires |input| > 0
    ensures var r := Step(st, input, env);
            && (input[0] == "ask" ==> r == DoAsk(st, input[1..], env.rng))
            && (input[0] == "add" ==> r == DoAdd(st, input[1..]))
            && (input[0] == "remove" ==> r == DoRemove(st, input[1..]))
            && (input[0] == "import" ==> r == DoImport(st, input[1..]))
            && (input[0] == "export" ==> r == DoExport(st, input[1..]))
            && (input[0] == "log" ==> r == DoLog(st, input[1..], env.log))
            && (input[0] == "hardest card" ==>
                  r == Continue(st, input[1..], [HardestShown(HardestReport(st.reg.stats))]))
            && (input[0] == "reset stats" ==>
                  && r.Continue? && r.rest == input[1..] && r.events == [StatsReset]
                  && r.st.reg.cards == st.reg.cards && r.st.files == st.files && r.st.draws == st.draws
                  && |r.st.reg.stats| == 0
                  && forall t :: NumberOfMistakes(r.st.reg.stats, t) == 0)
  {
    ParseActionWords(input[0]);
  }

  /** A line that names no action is a no-op turn. */
  lemma UnknownActionIsNoOp(st: State, input: seq<string>, env: Env)
    requires |input| > 0
    requires input[0] !in ["ask", "add", "remove", "import", "export", "log", "hardest card", "reset stats", "exit"]
    ensures Step(st, input, env) == Continue(st, input[1..], [])
  {
  }

  /** A line of what is left was a line of the input. */
  lemma ConsumesKeepsLines(input: seq<string>, rest: seq<string>, line: string)
    requires Consumes(input, rest)
    ensures line in rest ==> line in input
  {
    if line in rest {
      var k :| 0 <= k < |rest| && rest[k] == line;
      assert input[|input| - |rest| + k] == line;
    }
  }

  /** How the command loop ends. */
  datatype RunOutcome =
    | Exited(st: State, events: seq<Event>)
    | Crashed(fault: Fault, events: seq<Event>)

  /** `run`: turns until `exit` or an uncaught exception; it can only exit on an `exit` line. */
  function Run(st: State, input: seq<string>, env: Env): (r: RunOutcome)
    ensures r.Exited? ==> "exit" in input
    ensures "exit" !in input ==> r.Crashed?
    decreases |input|
  {
    match Step(st, input, env)
    case Continue(st', rest, events) =>
      ConsumesKeepsLines(input, rest, "exit");
      (match Run(st', rest, env)
       case Exited(st'', more) => Exited(st'', events + more)
       case Crashed(f, more) => Crashed(f, events + more))
    case Stop(st', _, events) => Exited(st', events)
    case Crash(f) => Crashed(f, [])
  }

  /** Every turn keeps the counters' terms distinct, as the keys of a dict are. */
  lemma StepKeepsUniqueKeys(st: State, input: seq<string>, env: Env)
    requires UniqueKeys(st.reg.stats)
    ensures var r := Step(st, input, env);
            (r.Continue? || r.Stop?) ==> UniqueKeys(r.st.reg.stats)
  {
    if |input| > 0 {
      var rest := input[1..];
      match ParseAction(input[0])
      case ImportAction =>
        if |rest| > 0 && rest[0] in st.files {
          ApplyLinesUniqueKeys(st.reg, ParseLines(ReadLines(st.files[rest[0]])));
        }
      case AskAction =>
        assert Step(st, input, env) == DoAsk(st, rest, env.rng);
      case _ =>
    }
  }

  /** The whole command loop keeps the counters' terms distinct. */
  lemma {:induction false} RunKeepsUniqueKeys(st: State, input: seq<string>, env: Env)
    requires UniqueKeys(st.reg.stats)
    ensures Run(st, input, env).Exited? ==> UniqueKeys(Run(st, input, env).st.reg.stats)
    decreases |input|
  {
    StepKeepsUniqueKeys(st, input, env);
    match Step(st, input, env)
    case Continue(st', rest, _) => RunKeepsUniqueKeys(st', rest, env);
    case Stop(_, _, _) =>
    case Crash(_) =>
  }

  // ---------------------------------------------------------------------------
  // The command-line arguments
  // ---------------------------------------------------------------------------

  /** What one command-line argument asks for. */
  datatype Arg = ImportFrom(path: string) | ExportTo(path: string) | OtherOption | Malformed

  /**
   * `arg.split("=")` unpacked into a name and a value: anything but exactly one
   * `=` raises, which the argument loop reports.
   */
  function ClassifyArg(arg: string): Arg {
    var parts := Split(arg, '=');
    if |parts| != 2 then Malformed
    else if parts[0] == "--import_from" then ImportFrom(parts[1])
    else if parts[0] == "--export_to" then ExportTo(parts[1])
    else OtherOption
  }

  /** An argument is malformed exactly when it does not hold one `=`. */
  lemma ClassifyArgMalformed(arg: string)
    ensures ClassifyArg(arg).Malformed? <==> multiset(arg)['='] != 1
  {
    SplitCount(arg, '=');
  }

  /** Two fields around one `=` give back the argument. */
  lemma TwoFields(arg: string)
    requires |Split(arg, '=')| == 2
    ensures var parts := Split(arg, '=');
            arg == parts[0] + "=" + parts[1] && '=' !in parts[1]
  {
    var parts := Split(arg, '=');
    JoinSplit(arg, '=');
    SplitFieldsFree(arg, '=');
    assert '=' !in parts[1];
    assert parts[1..] == [parts[1]];
  }

  /** The value of either option is what follows its name and `=`, and holds no `=`. */
  lemma ClassifyArgOption(arg: string)
    ensures ClassifyArg(arg).ImportFrom? ==>
              arg == "--import_from=" + ClassifyArg(arg).path && '=' !in ClassifyArg(arg).path
    ensures ClassifyArg(arg).ExportTo? ==>
              arg == "--export_to=" + ClassifyArg(arg).path && '=' !in ClassifyArg(arg).path
  {
    if |Split(arg, '=')| == 2 {
      TwoFields(arg);
    }
  }

  /** Conversely, `name=value` without another `=` is read as that name and value. */
  lemma ClassifyOption(name: string, value: string)
    requires '=' !in name && '=' !in value
    ensures ClassifyArg(name + "=" + value)
            == if name == "--import_from" then ImportFrom(value)
               else if name == "--export_to" then ExportTo(value)
               else OtherOption
  {
    assert name + "=" + value == name + ['='] + value;
    SplitAfterField(name, '=', value);
    SplitWithoutSeparator(value, '=');
  }

  /** What the argument loop leaves behind: the state, the export target if any, and the messages. */
  datatype Startup = Startup(st: State, exportTo: Option<string>, events: seq<Event>)

  /**
   * One argument: imports run at once, an export target is remembered, and every
   * exception is reported. An import keeps what its lines built even when one
   * fails, and the failure is reported as an unknown argument.
   */
  function ApplyArg(st: State, arg: string): (r: (State, seq<Event>))
    ensures r.0.files == st.files && r.0.draws == st.draws
    ensures !ClassifyArg(arg).ImportFrom? ==> r.0 == st
    ensures ClassifyArg(arg).Malformed? ==> r.1 == [UnknownArgument(arg)]
    ensures ClassifyArg(arg).ExportTo? || ClassifyArg(arg).OtherOption? ==> r.1 == []
    ensures ClassifyArg(arg).ImportFrom? && ClassifyArg(arg).path !in st.files ==> r == (st, [FileNotFound])
    ensures ClassifyArg(arg).ImportFrom? && ClassifyArg(arg).path in st.files ==>
              var result := ImportText(st.reg, st.files[ClassifyArg(arg).path]);
              && r.0.reg == result.reg
              && (r.1 == [UnknownArgument(arg)] <==> result.error.Some?)
              && (result.error.None? ==> r.1 == [Loaded(result.loaded)])
  {
    match ClassifyArg(arg)
    case ImportFrom(path) =>
      if path !in st.files then (st, [FileNotFound])
      else
        var result := ImportText(st.reg, st.files[path]);
        if result.error.Some? then (st.(reg := result.reg), [UnknownArgument(arg)])
        else (st.(reg := result.reg), [Loaded(result.loaded)])
    case ExportTo(_) => (st, [])
    case OtherOption => (st, [])
    case Malformed => (st, [UnknownArgument(arg)])
  }

  /** `path` is the value of the last `--export_to` argument. */
  predicate LastExport(args: seq<string>, path: string) {
    exists k :: 0 <= k < |args| && ClassifyArg(args[k]) == ExportTo(path)
                && forall j :: k < j < |args| ==> !ClassifyArg(args[j]).ExportTo?
  }

  /** There is at most one last `--export_to`. */
  lemma LastExportUnique(args: seq<string>, p: string, q: string)
    requires LastExport(args, p) && LastExport(args, q)
    ensures p == q
  {
    var k :| 0 <= k < |args| && ClassifyArg(args[k]) == ExportTo(p)
             && forall j :: k < j < |args| ==> !ClassifyArg(args[j]).ExportTo?;
    var m :| 0 <= m < |args| && ClassifyArg(args[m]) == ExportTo(q)
             && forall j :: m < j < |args| ==> !ClassifyArg(args[j]).ExportTo?;
    assert !(k < m) && !(m < k);
  }

  /** The loop over `sys.argv[1:]`: arguments in order, and the last `--export_to` wins. */
  function ProcessArgs(st: State, args: seq<string>): (r: Startup)
    ensures r.st.files == st.files && r.st.draws == st.draws
    ensures r.exportTo.Some? <==> exists k :: 0 <= k < |args| && ClassifyArg(args[k]).ExportTo?
    ensures r.exportTo.Some? ==> LastExport(args, r.exportTo.value)
    decreases |args|
  {
    if |args| == 0 then Startup(st, None, [])
    else
      var (st1, events) := ApplyArg(st, args[0]);
      var later := ProcessArgs(st1, args[1..]);
      var exportTo :=
        if later.exportTo.Some? then later.exportTo
        else if ClassifyArg(args[0]).ExportTo? then Some(ClassifyArg(args[0]).path)
        else None;
      assert exportTo.Some? ==>
               exists k :: 0 <= k < |args| && ClassifyArg(args[k]) == ExportTo(exportTo.value)
                           && forall j :: k < j < |args| ==> !ClassifyArg(args[j]).ExportTo? by {
        if later.exportTo.Some? {
          var k :| 0 <= k < |args[1..]| && ClassifyArg(args[1..][k]) == ExportTo(later.exportTo.value)
                   && forall j :: k < j < |args[1..]| ==> !ClassifyArg(args[1..][j]).ExportTo?;
          assert ClassifyArg(args[k + 1]) == ExportTo(exportTo.value);
          forall j | k + 1 < j < |args| ensures !ClassifyArg(args[j]).ExportTo? {
            assert args[j] == args[1..][j - 1];
          }
        } else if exportTo.Some? {
          forall j | 0 < j < |args| ensures !ClassifyArg(args[j]).ExportTo? {
            assert args[j] == args[1..][j - 1];
          }
        }
      }
      assert (exists k :: 0 <= k < |args| && ClassifyArg(args[k]).ExportTo?) ==> exportTo.Some? by {
        if exists k :: 0 <= k < |args| && ClassifyArg(args[k]).ExportTo? {
          var k :| 0 <= k < |args| && ClassifyArg(args[k]).ExportTo?;
          if k > 0 {
            assert args[1..][k - 1] == args[k];
          }
        }
      }
      Startup(later.st, exportTo, events + later.events)
  }

  /**
   * The arguments act in order, and a failing one does not stop the loop: one
   * more argument acts on the state the earlier ones left.
   */
  lemma {:induction false} ProcessArgsSnoc(st: State, args: seq<string>, a: string)
    ensures ProcessArgs(st, args + [a]).st == ApplyArg(ProcessArgs(st, args).st, a).0
    decreases |args|
  {
    if |args| == 0 {
      assert args + [a] == [a];
      assert [a][1..] == [];
    } else {
      assert (args + [a])[1..] == args[1..] + [a];
      ProcessArgsSnoc(ApplyArg(st, args[0]).0, args[1..], a);
    }
  }

  /** Only `--import_from` arguments change the state. */
  lemma {:induction false} ProcessArgsWithoutImports(st: State, args: seq<string>)
    requires forall k :: 0 <= k < |args| ==> !ClassifyArg(args[k]).ImportFrom?
    ensures ProcessArgs(st, args).st == st
    decreases |args|
  {
    if |args| > 0 {
      forall k | 0 <= k < |args[1..]| ensures !ClassifyArg(args[1..][k]).ImportFrom? {
        assert args[1..][k] == args[k + 1];
      }
      ProcessArgsWithoutImports(st, args[1..]);
    }
  }

  /** How the program ends. */
  datatype Outcome =
    | Finished(st: State, exportedTo: Option<string>, events: seq<Event>)
    | Aborted(fault: Fault, events: seq<Event>)

  /**
   * The script: the argument loop on an empty registry, then `run`, then the
   * export the arguments asked for, which happens only after `exit`, to the
   * last `--export_to` value, and only when that value is not empty.
   */
  function Program(args: seq<string>, input: seq<string>, files: map<string, string>, env: Env): (r: Outcome)
    ensures r.Finished? ==> "exit" in input
    ensures var run := Run(ProcessArgs(State(Registry([], []), files, 0), args).st, input, env);
            && (r.Finished? <==> run.Exited?)
            && (r.Finished? ==> r.st.reg == run.st.reg)
    ensures r.Finished? ==> (r.exportedTo.Some? <==> exists p :: p != "" && LastExport(args, p))
    ensures r.Finished? && r.exportedTo.Some? ==>
              var path := r.exportedTo.value;
              && path != ""
              && LastExport(args, path)
              && path in r.st.files
              && r.st.files[path] == ExportText(r.st.reg.cards, r.st.reg.stats)
  {
    var start := ProcessArgs(State(Registry([], []), files, 0), args);
    assert (exists p :: p != "" && LastExport(args, p)) ==> start.exportTo.Some? && start.exportTo.value != "" by {
      if exists p :: p != "" && LastExport(args, p) {
        var p :| p != "" && LastExport(args, p);
        LastExportUnique(args, p, start.exportTo.value);
      }
    }
    match Run(start.st, input, env)
    case Crashed(f, events) => Aborted(f, start.events + events)
    case Exited(st, events) =>
      if start.exportTo.Some? && start.exportTo.value != "" then
        Finished(Export(st, start.exportTo.value), start.exportTo, start.events + events + SavedMessages(|st.reg.cards|))
      else
        Finished(st, None, start.events + events)
  }

  /** With no arguments and `exit` typed at once, nothing is loaded, asked or written. */
  lemma ExitAtOnce(files: map<string, string>, env: Env)
    ensures Program([], ["exit"], files, env) == Finished(State(Registry([], []), files, 0), None, [Bye])
  {
  }
}

=== FILE: text.dfy ===
/**
 * The string primitives the flashcard program leans on, with Python's meaning:
 * `str.split(sep)`, `str.strip()`, `int(...)`, `str(int)` and `file.readlines()`.
 */
module Text {
  import opened Wrappers

  /** Characters that Python's `str.isspace()` accepts, hence the ones `str.strip()` removes. */
  predicate IsSpace(c: char) {
    || c == ' '
    || '\t' <= c <= '\r'
    || '\U{1C}' <= c <= '\U{1F}'
    || c == '\U{85}'
    || c == '\U{A0}'
    || c == '\U{1680}'
    || '\U{2000}' <= c <= '\U{200A}'
    || c == '\U{2028}'
    || c == '\U{2029}'
    || c == '\U{202F}'
    || c == '\U{205F}'
    || c == '\U{3000}'
  }

  // ---------------------------------------------------------------------------
  // str.strip()
  // ---------------------------------------------------------------------------

  /** Drops leading whitespace. */
  function StripLeft(s: string): (r: string)
    ensures |r| <= |s| && r == s[|s| - |r|..]
    ensures forall k :: 0 <= k < |s| - |r| ==> IsSpace(s[k])
    ensures |r| > 0 ==> !IsSpace(r[0])
  {
    if |s| > 0 && IsSpace(s[0]) then StripLeft(s[1..]) else s
  }

  /** Drops trailing whitespace. */
  function StripRight(s: string): (r: string)
    ensures |r| <= |s| && r == s[..|r|]
    ensures forall k :: |r| <= k < |s| ==> IsSpace(s[k])
    ensures |r| > 0 ==> !IsSpace(r[|r| - 1])
  {
    if |s| > 0 && IsSpace(s[|s| - 1]) then StripRight(s[..|s| - 1]) else s
  }

  /** Python's `str.strip()` with no argument. */
  function Strip(s: string): string {
    StripRight(StripLeft(s))
  }

  /** The bounds of what `str.strip()` keeps. */
  lemma {:induction false} StripBounds(s: string) returns (i: nat, j: nat)
    ensures i <= j <= |s| && Strip(s) == s[i..j]
    ensures forall k :: 0 <= k < i ==> IsSpace(s[k])
    ensures forall k :: j <= k < |s| ==> IsSpace(s[k])
  {
    i, j := StripRightBounds(s, StripLeft(s));
  }

  /** Stripping the right end of the suffix `l` of `s` keeps the slice `s[i..j]`, whitespace before and after. */
  lemma {:induction false} StripRightBounds(s: string, l: string) returns (i: nat, j: nat)
    requires |l| <= |s| && l == s[|s| - |l|..]
    requires forall k :: 0 <= k < |s| - |l| ==> IsSpace(s[k])
    ensures i <= j <= |s| && StripRight(l) == s[i..j]
    ensures forall k :: 0 <= k < i ==> IsSpace(s[k])
    ensures forall k :: j <= k < |s| ==> IsSpace(s[k])
  {
    i := |s| - |l|;
    j := i + |StripRight(l)|;
    forall k | j <= k < |s|
      ensures IsSpace(s[k])
    {
      assert s[k] == l[k - i];
    }
  }

  /**
   * What `str.strip()` leaves: the slice of `s` between whitespace-only ends,
   * neither starting nor ending with whitespace.
   */
  lemma StripIsTrim(s: string)
    ensures exists i, j :: 0 <= i <= j <= |s| && Strip(s) == s[i..j]
                           && (forall k :: 0 <= k < i ==> IsSpace(s[k]))
                           && (forall k :: j <= k < |s| ==> IsSpace(s[k]))
    ensures |Strip(s)| > 0 ==> !IsSpace(Strip(s)[0]) && !IsSpace(Strip(s)[|Strip(s)| - 1])
  {
    var i, j := StripBounds(s);
    var l := StripLeft(s);
    var r := StripRight(l);
    if |r| > 0 {
      assert r[0] == l[0];
    }
  }

  /** Stripping a line that starts and ends with a non-space character and carries one newline gives the line back. */
  lemma StripTerminatedLine(a: string)
    requires |a| > 0 && !IsSpace(a[0]) && !IsSpace(a[|a| - 1])
    ensures Strip(a + "\n") == a
  {
    assert StripLeft(a + "\n") == a + "\n";
    assert (a + "\n")[..|a|] == a;
    assert StripRight(a + "\n") == StripRight(a);
  }

  // ---------------------------------------------------------------------------
  // str.split(sep) and its inverse
  // ---------------------------------------------------------------------------

  /**
   * Python's `s.split(sep)` for a one-character separator: the fields between
   * separators, always at least one, none of them holding the separator.
   */
  function Split(s: string, sep: char): (r: seq<string>)
    ensures |r| >= 1
    decreases |s|
  {
    if |s| == 0 then [""]
    else
      var rest := Split(s[1..], sep);
      if s[0] == sep then [""] + rest
      else [[s[0]] + rest[0]] + rest[1..]
  }

  /** No field of a split holds the separator. */
  lemma {:induction false} SplitFieldsFree(s: string, sep: char)
    ensures forall k :: 0 <= k < |Split(s, sep)| ==> sep !in Split(s, sep)[k]
    decreases |s|
  {
    if |s| > 0 {
      SplitFieldsFree(s[1..], sep);
    }
  }

  /** A split has one field more than the string has separators. */
  lemma {:induction false} SplitCount(s: string, sep: char)
    ensures |Split(s, sep)| == multiset(s)[sep] + 1
    decreases |s|
  {
    if |s| > 0 {
      SplitCount(s[1..], sep);
      assert s == [s[0]] + s[1..];
      assert multiset(s) == multiset([s[0]]) + multiset(s[1..]);
    }
  }

  /** Python's `sep.join(fields)`. */
  function Join(fields: seq<string>, sep: char): string
    requires |fields| >= 1
  {
    if |fields| == 1 then fields[0] else fields[0] + [sep] + Join(fields[1..], sep)
  }

  /** Joining the fields of a split gives back the original string. */
  lemma {:induction false} JoinSplit(s: string, sep: char)
    ensures Join(Split(s, sep), sep) == s
    decreases |s|
  {
    if |s| > 0 {
      var rest := Split(s[1..], sep);
      JoinSplit(s[1..], sep);
      if s[0] == sep {
        assert Split(s, sep)[1..] == rest;
      } else {
        var r := Split(s, sep);
        if |rest| == 1 {
          assert r == [[s[0]] + rest[0]];
        } else {
          assert r[1..] == rest[1..];
          assert Join(rest, sep) == rest[0] + [sep] + Join(rest[1..], sep);
        }
      }
    }
  }

  /** A string without the separator is a single field. */
  lemma {:induction false} SplitWithoutSeparator(a: string, sep: char)
    requires sep !in a
    ensures Split(a, sep) == [a]
    decreases |a|
  {
    if |a| > 0 {
      SplitWithoutSeparator(a[1..], sep);
      assert [a[0]] + a[1..] == a;
    }
  }

  /** A separator-free prefix followed by the separator becomes the first field. */
  lemma {:induction false} SplitAfterField(a: string, sep: char, b: string)
    requires sep !in a
    ensures Split(a + [sep] + b, sep) == [a] + Split(b, sep)
    decreases |a|
  {
    var s := a + [sep] + b;
    if |a| == 0 {
      assert s[1..] == b;
    } else {
      assert s[1..] == a[1..] + [sep] + b;
      SplitAfterField(a[1..], sep, b);
      assert [a[0]] + a[1..] == a;
    }
  }

  /** Joining three fields. */
  lemma Join3(a: string, b: string, c: string, sep: char)
    ensures Join([a, b, c], sep) == a + [sep] + b + [sep] + c
  {
    assert [a, b, c][1..] == [b, c] && [b, c][1..] == [c];
    assert Join([c], sep) == c;
    assert Join([b, c], sep) == b + [sep] + c;
    assert Join([a, b, c], sep) == a + [sep] + (b + [sep] + c);
  }

  /** Splitting a join of separator-free fields gives back exactly those fields. */
  lemma {:induction false} SplitJoin(fields: seq<string>, sep: char)
    requires |fields| >= 1
    requires forall k :: 0 <= k < |fields| ==> sep !in fields[k]
    ensures Split(Join(fields, sep), sep) == fields
    decreases |fields|
  {
    if |fields| == 1 {
      SplitWithoutSeparator(fields[0], sep);
    } else {
      SplitJoin(fields[1..], sep);
      SplitAfterField(fields[0], sep, Join(fields[1..], sep));
      assert [fields[0]] + fields[1..] == fields;
    }
  }

  // ---------------------------------------------------------------------------
  // int(...) and str(int)
  // ---------------------------------------------------------------------------

  predicate IsDigit(c: char) {
    '0' <= c <= '9'
  }

  /** A non-empty run of decimal digits. */
  predicate IsNumeral(s: string) {
    |s| > 0 && forall k :: 0 <= k < |s| ==> IsDigit(s[k])
  }

  function DigitValue(c: char): nat
    requires IsDigit(c)
  {
    c as int - '0' as int
  }

  function DigitChar(d: nat): char
    requires d < 10
  {
    ('0' as int + d) as char
  }

  /** The value of a run of decimal digits, most significant first. */
  function DigitsValue(s: string): nat
    requires forall k :: 0 <= k < |s| ==> IsDigit(s[k])
  {
    if |s| == 0 then 0 else DigitsValue(s[..|s| - 1]) * 10 + DigitValue(s[|s| - 1])
  }

  /**
   * `int(s)` restricted to an optional minus sign followed by decimal digits;
   * `None` is Python's `ValueError`.
   */
  function ParseInt(s: string): Option<int> {
    if |s| > 0 && s[0] == '-' then
      if IsNumeral(s[1..]) then Some(0 - DigitsValue(s[1..])) else None
    else if IsNumeral(s) then Some(DigitsValue(s))
    else None
  }

  /** `str(n)` for a natural number: the shortest decimal numeral whose value is `n`. */
  function NatToString(n: nat): (r: string)
    ensures IsNumeral(r) && DigitsValue(r) == n
    ensures r[0] == '0' ==> n == 0
  {
    if n < 10 then [DigitChar(n)]
    else
      var r := NatToString(n / 10) + [DigitChar(n % 10)];
      assert r[..|r| - 1] == NatToString(n / 10);
      r
  }

  /** `str(n)` for any integer. */
  function IntToString(n: int): string {
    if n < 0 then "-" + NatToString(-n) else NatToString(n)
  }

  /** `int(str(n)) == n`, and the text is free of separators, newlines and whitespace. */
  lemma ParseIntToString(n: int)
    ensures ParseInt(IntToString(n)) == Some(n)
    ensures |IntToString(n)| > 0
    ensures forall k :: 0 <= k < |IntToString(n)| ==> !IsSpace(IntToString(n)[k]) && IntToString(n)[k] != ':'
  {
    var s := IntToString(n);
    if n < 0 {
      assert s[1..] == NatToString(-n);
    }
  }

  // ---------------------------------------------------------------------------
  // file.readlines()
  // ---------------------------------------------------------------------------

  /** Concatenates lines back into one text. */
  function Concat(lines: seq<string>): string {
    if |lines| == 0 then "" else lines[0] + Concat(lines[1..])
  }

  /**
   * `file.readlines()`: cuts the text after every newline, keeping the newline;
   * a final piece without one is a line of its own. Every line is non-empty and
   * only the last may lack its newline.
   */
  function ReadLines(text: string): (r: seq<string>)
    ensures Concat(r) == text
    ensures forall k :: 0 <= k < |r| ==> |r[k]| > 0
    decreases |text|
  {
    if |text| == 0 then []
    else
      var rest := ReadLines(text[1..]);
      if text[0] == '\n' || |rest| == 0 then [[text[0]]] + rest
      else
        var r := [[text[0]] + rest[0]] + rest[1..];
        assert r[1..] == rest[1..];
        assert Concat(rest) == rest[0] + Concat(rest[1..]);
        r
  }

  /** A line as `readlines()` cuts it: non-empty, with a newline at most at its end. */
  predicate IsLine(line: string) {
    |line| > 0 && '\n' !in line[..|line| - 1]
  }

  /** A line that its newline closes. */
  predicate IsClosed(line: string) {
    |line| > 0 && line[|line| - 1] == '\n'
  }

  /** What `readlines()` returns are lines, and every line but the last is closed. */
  lemma {:induction false} ReadLinesAreLines(text: string)
    ensures forall k :: 0 <= k < |ReadLines(text)| ==> IsLine(ReadLines(text)[k])
    ensures forall k :: 0 <= k < |ReadLines(text)| - 1 ==> IsClosed(ReadLines(text)[k])
    decreases |text|
  {
    if |text| > 0 {
      var rest := ReadLines(text[1..]);
      ReadLinesAreLines(text[1..]);
      var r := ReadLines(text);
      if text[0] == '\n' || |rest| == 0 {
        assert r == [[text[0]]] + rest;
        assert IsLine([text[0]]);
      } else {
        var line := [text[0]] + rest[0];
        assert r == [line] + rest[1..];
        assert line[..|line| - 1] == [text[0]] + rest[0][..|rest[0]| - 1];
        assert IsLine(line);
        assert |rest| > 1 ==> IsClosed(rest[0]) && IsClosed(line);
      }
    }
  }

  /** A newline-free line followed by its newline is read back as one line. */
  lemma {:induction false} ReadLinesAfterLine(a: string, rest: string)
    requires '\n' !in a
    ensures ReadLines(a + "\n" + rest) == [a + "\n"] + ReadLines(rest)
    decreases |a|
  {
    var t := a + "\n" + rest;
    if |a| == 0 {
      assert t[1..] == rest;
    } else {
      assert t[1..] == a[1..] + "\n" + rest;
      ReadLinesAfterLine(a[1..], rest);
      assert [a[0]] + (a[1..] + "\n") == a + "\n";
    }
  }

  /** Reading back concatenated newline-terminated lines gives the same lines. */
  lemma {:induction false} ReadLinesConcat(lines: seq<string>)
    requires forall k :: 0 <= k < |lines| ==> IsLine(lines[k]) && IsClosed(lines[k])
    ensures ReadLines(Concat(lines)) == lines
    decreases |lines|
  {
    if |lines| > 0 {
      var l := lines[0];
      var body := l[..|l| - 1];
      assert body + "\n" == l;
      ReadLinesConcat(lines[1..]);
      ReadLinesAfterLine(body, Concat(lines[1..]));
      assert [l] + lines[1..] == lines;
    }
  }
}

=== FILE: wrappers.dfy ===
/** Failure-carrying datatypes shared by the rest of the model. */
module Wrappers {

  /** An optional value; `None` stands for the Python lookups that raise or find nothing. */
  datatype Option<+T> = None | Some(value: T) {

    /** Returns the value, or `default` when there is none (Python's `dict.get(k, default)`). */
    function GetOr(default: T): T {
      match this
      case Some(v) => v
      case None => default
    }
  }
}
